=== FILE: README.md ===
# CourseTable scheduling core in Dafny

CourseTable is a weekly timetable: a Flask/SQLite backend (`app.py`) and a
browser client (`static/script.js`). This project models the sequential
scheduling logic of both, with immutable datatypes, pure functions, a few
methods with loops, and lemmas about them.

On the client side it covers:

- the fixed table of eight 45-minute teaching periods;
- `HH:MM` to minutes and back;
- the half-open overlap test;
- the grid of `renderSchedule`: each (day, period) cell holds the first course of that day overlapping the period;
- the period form of `saveCourse` / `editCourse`;
- the memoised colour palette of `getCourseColor`;
- `adjustColor`.

On the backend it covers:

- the string-based `check_time_conflict`;
- the validation and conflict gates of `add_course` / `update_course`;
- `delete_course`;
- the store invariant that no two courses on the same day overlap;
- the integer part of `get_statistics`;
- the filter, ordering and limit of `get_upcoming_courses`.

Module layout:

- **Options** holds `Option` and `Result`.
- **LexOrder** is the code-point string order of Python's `str` and SQLite's BINARY collation.
- **Clock** converts `HH:MM` strings to and from minutes.
- **Courses** holds the course record and the `ORDER BY day_of_week, start_time` order.
- **Sorting** is a stable insertion sort with a "first n" selection.
- **Sequences** holds order-of-first-appearance deduplication, which is the key order of a Python dict. A JavaScript object has the same key order except for integer-like keys, which come first in numeric order; the client only reads the number of keys.
- **Slots**, **PeriodForm**, **Grid**, **Palette** and **HexColor** are the client side.
- **Store**, **Statistics** and **Upcoming** are the backend.

The SQLite table is a finite map from row id to course, plus the
AUTOINCREMENT counter. The current weekday and minute are parameters. A
malformed time string yields `None`: it stands for JavaScript's `NaN` and
Python's `ValueError`.

Two behaviours of the code as written are proved, beyond the findings below:

- The backend compares times as strings. This agrees with comparing minutes only for zero-padded `HH:MM` times (`Store.TextOverlapIsMinuteOverlap`). An unpadded `9:00`–`9:30` course is not reported against a stored `8:30`–`10:00` one (`Store.UnpaddedTimesMissConflict`).
- The grid compares endpoints only, so a zero-length course inside a period occupies it (`Slots.ZeroLengthCourseOccupies`).

## Model

| member | source | states |
|---|---|---|
| LexOrder.LexLessIrreflexive | app.py:166 | no time string sorts before itself under Python's string `<` |
| LexOrder.LexLessTransitive | app.py:166 | Python's string `<` is transitive |
| LexOrder.LexLessTotal | app.py:183 | two different strings are ordered one way or the other, so the SQL ordering by start time is total |
| LexOrder.LexLessAsymmetric | app.py:166 | `a < b` and `b < a` never both hold |
| Clock.ParseTime | static/script.js:51-54 | `timeToMinutes`, and `time_to_minutes` at app.py:201-204: hours times 60 plus minutes, or `None` for NaN / `ValueError`; no contract of its own, stated by `Clock.ParseClockTime`, `Clock.FormatParseRoundTrip` and `Store.ParseOneDigitHour` |
| Clock.FormatTime | static/script.js:57-61 | `minutesToTime`, and `minutes_to_time` at app.py:206-210: two-digit hours and minutes; no contract of its own, stated by `Clock.FormatWithinDay` and `Clock.FormatParseRoundTrip` |
| Clock.ParseClockTime | static/script.js:51-54 | `timeToMinutes` of a zero-padded `HH:MM` is `HH*60 + MM` |
| Clock.FormatParseRoundTrip | app.py:201-210 | parsing what `minutes_to_time` writes gives back every non-negative minute count |
| Clock.FormatWithinDay | static/script.js:57-61 | below 1440, `minutesToTime` writes a zero-padded `HH:MM` denoting the same minutes |
| Clock.LexLessIsMinuteOrder | app.py:166 | for zero-padded clock times, string order is exactly minute order |
| Clock.AllDigitsChars | app.py:203 | the recursive digit-run test holds iff every character is a decimal digit |
| Courses.ByDayThenStartIsStrictOrder | app.py:183 | `ORDER BY day_of_week, start_time` is irreflexive and transitive |
| Sorting.Insert | app.py:250 | inserting into a sorted list keeps it sorted, and adds exactly one copy of the element |
| Sorting.Sort | app.py:250 | the result is sorted and a permutation of the input |
| Sorting.SortAgrees | app.py:183 | two orders that agree on the elements present sort them identically |
| Sorting.Smallest | app.py:183-184 | `ORDER BY … LIMIT n`: min(n, size) elements, sorted, a sub-multiset, and no dropped element sorts before a kept one |
| Sorting.SmallestKeepsMinimum | app.py:183-184 | an element sorting before all others is always among the first n (n > 0) |
| Sorting.SmallestDropsMaximum | app.py:183-184 | a unique element sorting after all others is dropped when n < size |
| Sequences.DedupMembers | app.py:232-233 | the keys of a dict filled in row order are the distinct names, each once |
| Sequences.DedupAppend | app.py:232-233 | a new name is appended to the key order; a known name leaves it unchanged |
| Slots.SlotTableWellFormed | static/script.js:9-18 | eight periods of zero-padded times, each exactly 45 minutes, each ending before the next starts |
| Slots.SlotWellFormed | static/script.js:9-18 | period i starts at its listed minute and lasts 45 minutes |
| Slots.SlotsDisjoint | static/script.js:9-18 | periods are ordered and pairwise non-overlapping, and their times parse to their minutes |
| Slots.SlotsOrdered | static/script.js:9-18 | an earlier period ends before a later one starts |
| Slots.SlotParses | static/script.js:95-98 | both times of every period parse, start before end |
| Slots.Overlaps | static/script.js:114-116 | `isTimeInSlot`, and the same strict test at static/script.js:100; no contract of its own, stated by `Slots.OverlapSymmetric`, `Slots.OverlapMeansSharedMinute` and `Slots.ContainmentOverlaps` |
| Slots.OverlapSymmetric | static/script.js:114-116 | for all intervals, empty ones included, the test is symmetric and touching intervals do not overlap |
| Slots.OverlapMeansSharedMinute | static/script.js:114-116 | for non-empty intervals, overlap iff they share a minute |
| Slots.ContainmentOverlaps | static/script.js:114-116 | nested non-empty intervals overlap |
| Slots.Occupies | static/script.js:94-101 | the `find` callback on the four parsed times; no contract of its own, stated by `Slots.OccupiesByMinutes` and `Slots.OccupiesIsOverlap` |
| Slots.OccupiesByMinutes | static/script.js:94-101 | the grid test of a course against a period is the overlap of the parsed minutes |
| Slots.OccupiesIsOverlap | static/script.js:94-101 | for parseable course times, occupying period i is overlapping its minutes |
| Slots.ZeroLengthCourseOccupies | static/script.js:100 | an `08:20`–`08:20` course occupies period 1 |
| PeriodForm.FirstPeriodFrom | static/script.js:250-255 | the loop returns the 1-based index of the first equal entry, or null when there is none |
| PeriodForm.GetPeriodByTime | static/script.js:249-256 | `getPeriodByTime` over the period start times; no contract of its own, stated by `PeriodForm.GetPeriodByTimeInvertsStart` |
| PeriodForm.TimesDistinct | static/script.js:9-18 | period start times are pairwise different, and so are end times |
| PeriodForm.FindsDistinct | static/script.js:250-255 | in a list without repeats each entry is found at its own position |
| PeriodForm.GetPeriodByTimeInvertsStart | static/script.js:249-256 | `getPeriodByTime(timeSlots[i].start) == i + 1`, and null exactly for non-start times |
| PeriodForm.PeriodsToTimes | static/script.js:321-338 | rejects unset or zero periods and end < start; accepts exactly periods 1..8 with start ≤ end; the accepted times are clock times with start before end |
| PeriodForm.PeriodTimesOrdered | static/script.js:337-338 | the start of period s precedes the end of period e ≥ s |
| PeriodForm.SavedTimes | static/script.js:337-338 | an accepted choice stores the start of period s and the end of period e |
| PeriodForm.SavedCourseOccupiesItsPeriods | static/script.js:337-338 | a course saved from periods s..e occupies exactly grid periods s..e |
| PeriodForm.SpanOccupies | static/script.js:94-101 | period k overlaps the span of periods i..j iff i ≤ k ≤ j |
| PeriodForm.SpanOverlap | static/script.js:100 | the same in minutes |
| PeriodForm.NoEndIsAStart | static/script.js:9-18 | no period ends at another period's start time |
| PeriodForm.EditPeriods | static/script.js:269-272 | `editCourse` as written, both times looked up among start times; no contract of its own, stated by `PeriodForm.EditFormLosesEndPeriod` |
| PeriodForm.EditFormLosesEndPeriod | static/script.js:269-272 | reopening any form-saved course shows its start period and a blank end period |
| PeriodForm.GetPeriodByEndTimeInvertsEnd | static/script.js:249-256 | the end-time lookup finds every period from its end time |
| PeriodForm.EditPeriodsCorrected | static/script.js:269-272 | `editCourse` with the end time looked up among end times; no contract of its own, stated by `PeriodForm.EditPeriodsRoundTrip` |
| PeriodForm.EditPeriodsRoundTrip | static/script.js:269-272 | with the end looked up among end times, save-then-edit gives back (s, e) |
| Grid.FirstIndex | static/script.js:94-101 | `find`'s index: the first element passing the test, or none iff no element passes |
| Grid.FirstIndexAppend | static/script.js:94-101 | the first match in a concatenation is in the first part if there is one there, else in the second |
| Grid.FindAppend | static/script.js:94-101 | `find` on a concatenation searches the second part only when the first has no match |
| Grid.Filter | static/script.js:74-76 | the kept elements come from the list and pass the test; completeness and order are stated by `Grid.FilterExact` and `Grid.FilterAppend` |
| Grid.FilterExact | static/script.js:74-76 | an element is kept iff it is in the list and passes the test, and the result is a sub-multiset of the list |
| Grid.FilterAppend | static/script.js:74-76 | filtering a concatenation is the concatenation of the filtered parts, so kept elements stay in list order |
| Grid.FindFilter | static/script.js:74-101 | finding among the elements that pass q equals finding the first element passing both tests |
| Grid.Bucket | static/script.js:74-76 | `dayCourses[day]` holds only courses of that day, taken from the list; completeness and order are stated by `Grid.BucketExact` and `Grid.BucketAppend` |
| Grid.BucketExact | static/script.js:74-76 | `dayCourses[day]` holds every course of that day and no other, as a sub-multiset of the list |
| Grid.BucketAppend | static/script.js:74-76 | bucketing a concatenation buckets each part, so a day's courses stay in list order |
| Grid.FindInBucketIsCell | static/script.js:74-101 | searching a day's bucket finds the first course of the whole list on that day passing the test |
| Grid.Cell | static/script.js:94-101 | the cell of `renderSchedule`: `find` over the day's bucket with the period test; no contract of its own, stated by `Grid.CellIsFirstMatch` and `Grid.FindInBucketIsCell` |
| Grid.CellIsFirstMatch | static/script.js:94-101 | a cell is empty iff no course has its day and occupies its period, else it holds the first such course in list order |
| Grid.BucketByDay | static/script.js:69-76 | no buckets iff some course's day is outside 1..7; otherwise bucket d is exactly the day-d courses in list order |
| Grid.BucketStep | static/script.js:74-76 | pushing the next course onto its day's bucket keeps every bucket equal to its filter |
| Grid.RenderRow | static/script.js:87-101 | the seven cells of one period row equal the first-match cells of days 1..7 |
| Grid.RenderRows | static/script.js:79-110 | one row per period, in period order |
| Grid.RenderSchedule | static/script.js:64-111 | no grid iff a course has a day outside 1..7; otherwise eight rows of seven cells, each the first matching course of its day |
| Grid.RowOfCells | static/script.js:87-101 | column day − 1 of a period's row is that day's cell |
| Grid.SingleCourseCells | static/script.js:94-101 | with one course, a cell holds it iff its day and period match |
| Grid.OnePeriodExample | static/script.js:10 | a day-1 08:00–08:45 course fills only the day-1, period-1 cell |
| Grid.TwoPeriodExample | static/script.js:10-11 | a day-1 08:00–09:40 course fills the day-1 cells of periods 1 and 2: no deduplication across periods |
| Palette.GetCourseColor | static/script.js:119-132 | a known name keeps its colour and the map is unchanged; a new name gets palette entry (map size mod 16) and the map grows by one |
| Palette.AssignColors | static/script.js:39-42 | after the reset and the first pass, the map's keys are exactly the course names |
| Palette.AssignColorsByFirstAppearance | static/script.js:39-42 | the k-th distinct name in order of first appearance has colour k mod 16; one entry per distinct name |
| Palette.NewNameGetsNextColor | static/script.js:128-129 | a name not seen before extends the first-appearance colouring by the next palette entry |
| Palette.ExtendColoring | static/script.js:128-129 | giving a fresh name the next entry keeps all earlier names' colours |
| Palette.PaletteCycles | static/script.js:128 | the (k+16)-th distinct name gets the k-th one's colour |
| Palette.RenderingKeepsColors | static/script.js:141 | rendering an already coloured name returns its colour and leaves the map unchanged |
| HexColor.HexChar | static/script.js:176 | each digit value is written as a lower-case hex digit that reads back to it |
| HexColor.Clamp | static/script.js:173-175 | the clamp lands in 0..255, is the identity inside, and saturates outside |
| HexColor.AdjustColor | static/script.js:166-177 | the result is a colour of the same shape (with '#' iff the input has it), lower-case, and each channel is clamp(channel + amount) |
| HexColor.AdjustColorCorrect | static/script.js:169-176 | the shift, mask and re-pack arithmetic moves each channel by the clamped amount |
| HexColor.DecodeChannels | static/script.js:169-172 | `num >> 16`, `num >> 8 & 0xFF` and `num & 0xFF` are the three two-digit channels |
| HexColor.EncodeChannels | static/script.js:176 | the six-digit padded hex numeral of the packed channels spells them pair by pair, in lower case |
| HexColor.HexNumeralValue | static/script.js:176 | `toString(16)` reads back to its number |
| HexColor.PadStart6Value | static/script.js:176 | `padStart(6, '0')` keeps the value |
| HexColor.DarkenFirstPaletteColor | static/script.js:142 | the gradient's second stop for `#27ae60` is `#139a4c` |
| Store.ToCourse | app.py:84-92 | the inserted row carries the form's name, day and times |
| Store.TextOverlap | app.py:166 | `start_time < course_end and end_time > course_start` on the stored strings; no contract of its own, stated by `Store.TextOverlapSymmetric`, `Store.TextOverlapIsMinuteOverlap` and `Store.UnpaddedTimesMissConflict` |
| Store.HasConflict | app.py:147-167 | the query and loop of `check_time_conflict` as a predicate on the table; no contract of its own, the reference `Store.CheckTimeConflict` is proved equal to |
| Store.CheckTimeConflict | app.py:144-169 | true iff some row, other than a truthy excluded id, on the same day satisfies `start < course_end and end > course_start` as strings |
| Store.TextOverlapSymmetric | app.py:166 | the string overlap test is symmetric in its two intervals |
| Store.TextOverlapIsMinuteOverlap | app.py:166 | for zero-padded times the string test equals the minute overlap test |
| Store.UnpaddedTimesMissConflict | app.py:166 | `9:00`–`9:30` overlaps `8:30`–`10:00` in minutes but not as strings |
| Store.AddCourse | app.py:65-98 | rejects exactly on a missing or falsy field, or else a same-day conflict, leaving the table unchanged; otherwise commits the row under the next id and answers with a server error, since the connection has no `lastrowid` |
| Store.AcceptedAddCommitsThenFails | app.py:94-95 | every add that passes both gates leaves one more row, holding the submitted course, and still answers with a server error |
| Store.AddCourseCorrected | app.py:65-98 | the same gates; an accepted add inserts the row under the next id and answers 201 with that id, as the cursor's `lastrowid` gives |
| Store.AddVersionsAgree | app.py:94-95 | the add as written and the corrected add write the same table; the first answers a server error exactly when the second reports the new id |
| Store.UpdateCourse | app.py:100-133 | the same gates excluding the row itself; otherwise overwrites the row if present and reports success either way; the AUTOINCREMENT counter is never changed |
| Store.DeleteCourse | app.py:135-142 | removes exactly that id, keeps every other row, is a no-op for an absent id, and always reports success |
| Store.AddPreservesNoOverlap | app.py:74-93 | inserting a course with no conflict keeps same-day rows pairwise non-overlapping |
| Store.AddKeepsNoOverlap | app.py:65-98 | every add outcome keeps the no-overlap invariant |
| Store.UpdatePreservesNoOverlap | app.py:108-129 | overwriting a row with a course that conflicts with no other row keeps the invariant |
| Store.UpdateKeepsNoOverlap | app.py:100-133 | every update outcome keeps the no-overlap invariant |
| Store.DeletePreservesNoOverlap | app.py:139 | deleting cannot create an overlap |
| Store.ParseOneDigitHour | app.py:201-204 | `time_to_minutes` of an unpadded `H:MM` is its minutes |
| Statistics.TimeRow | app.py:227-230 | a row's duration is end minus start minutes, and fails iff a time does not parse |
| Statistics.TimeRows | app.py:226-230 | the aggregation fails iff some row's time fails; otherwise one duration per row in order |
| Statistics.Entries | app.py:239-247 | one entry per listed name, in that order |
| Statistics.MinutesOfAbsent | app.py:232-234 | a name with no rows sums to 0 |
| Statistics.EntriesAddRow | app.py:234-235 | one more row adds its minutes to the sum of its own name's entry only |
| Statistics.TallyAddRow | app.py:234-235 | one more row adds its minutes to the distribution's sum, whether its name is new or known |
| Statistics.TallyAddsUp | app.py:234-235 | the per-name sums add up to the total minutes |
| Statistics.SumMinutesConcat | app.py:239-247 | the minute sum of a concatenation is the sum of the parts |
| Statistics.SumMinutesPermutation | app.py:250 | sorting the entries does not change their sum |
| Statistics.RemoveAt | app.py:250 | removing one entry removes one copy and its minutes |
| Statistics.MoreMinutesIsStrictOrder | app.py:250 | descending by minutes is a strict order |
| Statistics.MinutesMapSums | app.py:223-235 | the map's keys are exactly the names, each holding the sum of its rows' minutes |
| Statistics.MapStep | app.py:232-234 | one loop step updates the map entry of the row's name |
| Statistics.OrderStep | app.py:232-233 | one loop step appends a new name to the key order |
| Statistics.KnownName | app.py:232 | the `not in course_time_map` test is the test against the key order |
| Statistics.TotalStep | app.py:235 | one loop step adds the duration to the total |
| Statistics.NextOrder | app.py:232-233 | the key order after one more row |
| Statistics.NextMinutes | app.py:232-234 | the map after one more row |
| Statistics.NextTotal | app.py:235 | the total after one more row |
| Statistics.CountRow | app.py:226-235 | one iteration keeps map, key order and total equal to their definitions on the rows so far |
| Statistics.Accumulate | app.py:223-235 | the loop computes the per-name map, its key order, and the total |
| Statistics.ListEntries | app.py:238-247 | the entries are produced in key order with their summed minutes |
| Statistics.GetStatistics | app.py:212-256 | fails iff a time does not parse; otherwise the count is the row count, the total is the sum of durations, and the distribution is sorted by descending minutes and a permutation of the per-name entries |
| Statistics.Tally | app.py:223-247 | the per-name entries in dict order, the reference for `get_statistics`; no contract of its own, stated by `Statistics.TallyEntries`, `Statistics.TallyAddsUp` and `Statistics.ListEntries` |
| Statistics.DistributionSummary | app.py:238-255 | the distribution adds up to the total, and holds exactly one entry per distinct course name, with that name's minutes |
| Statistics.DistributionOnePerName | app.py:238-247 | as many entries as distinct names, and no name listed twice |
| Statistics.DistributionAddsUp | app.py:250-255 | the sorted distribution adds up to the total |
| Statistics.DistributionIsTally | app.py:250 | the sorted distribution has the same entries as the dict |
| Statistics.DistributionNames | app.py:238-247 | a name has an entry iff some row carries it |
| Statistics.TallyEntries | app.py:239-247 | every entry holds the summed minutes of its own, listed name |
| Upcoming.Tomorrow | app.py:185 | `(current_day % 7) + 1` is in 1..7, differs from today, is the next day, and wraps 7 to 1 |
| Upcoming.IsUpcoming | app.py:180-182 | the WHERE clause: later today by string order, or tomorrow; no contract of its own, stated by `Upcoming.UpcomingMeansLaterToday` |
| Upcoming.Selected | app.py:180-182 | the WHERE clause: kept rows are upcoming; every upcoming row is kept; a sub-multiset; everything when all are upcoming |
| Upcoming.UpcomingCourses | app.py:180-185 | min(5, selected) courses, all upcoming, sorted by (day, start), and no dropped one sorts before a kept one |
| Upcoming.UpcomingMeansLaterToday | app.py:174-176 | with `now` from the clock, a course today is upcoming iff it starts at or after the current minute |
| Upcoming.SundayCourseDropped | app.py:183-185 | on Sunday at 19:00 a Sunday 20:00 course is selected but crowded out by five Monday courses |
| Upcoming.SoonerFromIsStrictOrder | app.py:183 | today-first-then-start is a strict order |
| Upcoming.UpcomingTodayFirst | app.py:180-185 | the limit and filter as written, ordered with today's courses before tomorrow's |
| Upcoming.TodayNeverCrowdedOut | app.py:183-185 | with today first, no selected course of today is dropped while one of tomorrow is shown |
| Upcoming.WeekdaysAgree | app.py:183-185 | from Monday to Saturday the two orders give the same result |
| Upcoming.SundayRowsAllSelected | app.py:180-182 | all six example rows pass the WHERE clause |
| Upcoming.SundayCourseKept | app.py:183-185 | with today first, the Sunday 20:00 course is shown |

## Left out

- Flask routing, JSON, SQLite connections, `fetch`, timers, the DOM, alerts and Chart.js are left out as I/O and presentation. That includes the unconditional "saved" alert of `saveCourse`.
- `datetime.now()` is left out: the weekday and the minute of the day are parameters (`Upcoming.UpcomingAt`).
- Floating-point values are left out: `hours`, `percentage`, `total_hours`, their rounding and `credit`. Only the integer minute sums are kept, and the course record has no credit field.
- `GET /api/courses` and `get_upcoming_courses`' row-to-JSON copying are left out as pure data transfer.
- Clock.ParseTime: only `<digits>:<digits>` parses. JavaScript's `Number` also reads an empty field as 0 (`"8:"` gives 480) and accepts surrounding blanks. The client's destructuring ignores a third field (`"08:00:00"` gives 480). JavaScript's `Number` also accepts a sign, a decimal point, a `0x`, `0o` or `0b` prefix, an exponent and `Infinity` (`"8.5:00"` gives 510). Python's `int` accepts signs, blanks, underscores and non-ASCII decimal digits such as `"٠٨"`. The form only ever writes zero-padded `HH:MM`.
- Clock.FormatTime: takes a non-negative minute count. Floor division of negative minutes is not modelled.
- HexColor.AdjustColor: defined for a '#' plus six hex digits, or six hex digits. The client only passes palette entries. `parseInt`'s partial parse or NaN on other strings is not modelled.
- Statistics.GetStatistics: states sortedness and permutation but not stability. The model's sort keeps equal-minute entries in dict order, as Python's does. A time that does not parse fails the whole request, which is HTTP 500 in the source.
- Upcoming.UpcomingCourses: SQLite leaves the order of rows with equal (day, start) unspecified. The model keeps them in table order, and the input is the rows as a sequence rather than the id map.
- Palette.GetCourseColor: the colour map is a plain dictionary. In the client it is an object literal, so a course named after an inherited property such as `constructor` reads as already coloured; that case is not modelled.
- Store.ToCourse: an optional text field sent as JSON `null` is stored as "" here but as NULL by the source. Only a missing key gets the "" default there.
- Store.AddKeepsNoOverlap, Store.UpdateKeepsNoOverlap: the invariant is proved for requests handled one at a time. The source checks for a conflict on one connection and writes on another, with no transaction around both, and the development server handles requests on threads, so two concurrent requests can both pass the check.
- Store.AddCourse: the connection that the handler never closes after the failing `lastrowid` read is not modelled. On the client, the HTML error page makes `response.json()` throw, so the user is told the save failed although the row was stored.
- Statistics.GetStatistics: the rows are a sequence in table-scan order, with no link to `Store.Table`, as for `Upcoming.UpcomingCourses`.
- Store.AddCourse, Store.UpdateCourse: `course_name`, `start_time` and `end_time` are optional strings and `day_of_week` an optional integer. Other JSON types in these four fields are not modelled. In the source a falsy one (`0`, `false`, `[]`) is rejected as missing. A truthy non-string time makes the string comparison of `check_time_conflict` raise a TypeError (HTTP 500) when the day already has rows, and is otherwise stored, so that `time_to_minutes` fails on it later. The SQLite type affinity such values would meet is not modelled either.
- PeriodForm.PeriodsToTimes: the period fields are `parseInt` results, given as optional integers. A period outside 1..8 makes the client throw before sending anything, modelled as `NoSuchPeriod`.
- The Chart.js palettes are sliced, not cycled. They are not modelled.

## Findings

| source | as written | input that shows it | evidently intended | confidence | as-written member | corrected member |
|---|---|---|---|---|---|---|
| static/script.js:270 | `editCourse` looks the END time up with `getPeriodByTime`, which searches period START times | any course saved through the form, e.g. periods 1..1 stored as `08:00`–`08:45`: `08:45` is no period's start, so the end-period field is blank | look the end time up among period end times, so the form reopens with (s, e) | high (not executed) | PeriodForm.EditPeriods, PeriodForm.EditFormLosesEndPeriod | PeriodForm.EditPeriodsCorrected, PeriodForm.EditPeriodsRoundTrip |
| app.py:183-185 | `ORDER BY day_of_week, start_time LIMIT 5` sorts tomorrow before today on Sunday, because Monday is day 1 and Sunday day 7 | Sunday 19:00, a Sunday course at 20:00 and five Monday courses: the five Monday courses are returned and the 20:00 course is dropped | today's remaining courses first, then tomorrow's | medium (not executed) | Upcoming.UpcomingCourses, Upcoming.SundayCourseDropped | Upcoming.UpcomingTodayFirst, Upcoming.SundayCourseKept, Upcoming.TodayNeverCrowdedOut |
| app.py:95 | `course_id = conn.lastrowid` reads `lastrowid` from the `sqlite3` connection, which has no such attribute (only a cursor has one), after the commit at app.py:94 | any POST with all required fields and no same-day conflict: the row is committed, then `AttributeError` makes the answer HTTP 500 | take `lastrowid` from the cursor returned by `conn.execute` and answer 201 with the new id | high (not executed) | Store.AddCourse, Store.AcceptedAddCommitsThenFails | Store.AddCourseCorrected, Store.AddVersionsAgree, Store.AddKeepsNoOverlap |

=== FILE: clock.dfy ===
/**
 Wall-clock `HH:MM` strings and minutes since midnight: `timeToMinutes` /
 `minutesToTime` of the browser client and `time_to_minutes` /
 `minutes_to_time` of the backend.

 Both sides split the string at ':' and read each part as a decimal number,
 so one parser serves both. A string that is not `<digits>:<digits>` yields
 `None`, standing for JavaScript's NaN and Python's ValueError.
 */
module Clock {
  import opened Options
  import opened LexOrder

  predicate IsDigit(c: char) {
    '0' <= c <= '9'
  }

  /** Every character of `s` is a decimal digit. */
  predicate AllDigits(s: string)
    decreases |s|
  {
    |s| == 0 || (AllDigits(s[..|s| - 1]) && IsDigit(s[|s| - 1]))
  }

  lemma {:induction false} AllDigitsChars(s: string)
    ensures AllDigits(s) <==> forall i :: 0 <= i < |s| ==> IsDigit(s[i])
    decreases |s|
  {
    if |s| > 0 {
      var p := s[..|s| - 1];
      AllDigitsChars(p);
      assert forall i :: 0 <= i < |p| ==> p[i] == s[i];
    }
  }

  function DigitValue(c: char): (d: nat)
    requires IsDigit(c)
    ensures d < 10
  {
    (c as int) - ('0' as int)
  }

  function DigitChar(d: nat): (c: char)
    requires d < 10
    ensures IsDigit(c) && DigitValue(c) == d
  {
    ((('0' as int) + d) as char)
  }

  /** The value of a run of decimal digits, most significant digit first. */
  function Decimal(s: string): nat
    requires AllDigits(s)
    decreases |s|
  {
    if |s| == 0 then 0 else 10 * Decimal(s[..|s| - 1]) + DigitValue(s[|s| - 1])
  }

  /** The shortest decimal numeral of `n` (`Number.prototype.toString`, `str`). */
  function Numeral(n: nat): (s: string)
    ensures |s| >= 1 && AllDigits(s)
  {
    if n < 10 then [DigitChar(n)]
    else
      var prefix := Numeral(n / 10);
      var s := prefix + [DigitChar(n % 10)];
      assert s[..|s| - 1] == prefix;
      s
  }

  /** Left-pads with '0' to width two: `padStart(2, '0')` and Python's `:02d`. */
  function Pad2(s: string): (r: string)
    ensures |r| == if |s| < 2 then 2 else |s|
  {
    if |s| == 0 then "00" else if |s| == 1 then "0" + s else s
  }

  /** Index of the first ':' in `s`, if any. */
  function FindColon(s: string): (r: Option<nat>)
    ensures r.Some? ==> r.value < |s| && s[r.value] == ':'
  {
    if |s| == 0 then None
    else if s[0] == ':' then Some(0)
    else match FindColon(s[1..])
      case None => None
      case Some(i) => Some(i + 1)
  }

  /** Minutes of an hour field and a minute field, when both are non-empty digit runs. */
  function ParseFields(h: string, m: string): Option<nat> {
    if |h| > 0 && |m| > 0 && AllDigits(h) && AllDigits(m)
    then Some(Decimal(h) * 60 + Decimal(m))
    else None
  }

  /** Minutes since midnight of `H:M`, where `H` and `M` are non-empty digit runs. */
  function ParseTime(s: string): Option<nat> {
    match FindColon(s)
    case None => None
    case Some(i) => ParseFields(s[..i], s[i + 1..])
  }

  /** `minutesToTime` / `minutes_to_time`: hours and minutes, each padded to two digits. */
  function FormatTime(minutes: nat): string {
    Pad2(Numeral(minutes / 60)) + ":" + Pad2(Numeral(minutes % 60))
  }

  /** A zero-padded `HH:MM` string whose minute field is below 60. */
  predicate IsClockTime(s: string) {
    && |s| == 5
    && IsDigit(s[0]) && IsDigit(s[1]) && s[2] == ':' && IsDigit(s[3]) && IsDigit(s[4])
    && s[3] <= '5'
  }

  function Hours(s: string): (h: nat)
    requires IsClockTime(s)
    ensures h < 100
  {
    10 * DigitValue(s[0]) + DigitValue(s[1])
  }

  function MinuteField(s: string): (m: nat)
    requires IsClockTime(s)
    ensures m < 60
  {
    10 * DigitValue(s[3]) + DigitValue(s[4])
  }

  /** Minutes of a clock time read field by field. */
  function ClockMinutes(s: string): nat
    requires IsClockTime(s)
  {
    Hours(s) * 60 + MinuteField(s)
  }

  lemma {:induction false} DecimalLeadingZero(s: string)
    requires AllDigits(s)
    ensures AllDigits("0" + s) && Decimal("0" + s) == Decimal(s)
    decreases |s|
  {
    if |s| > 0 {
      var t := "0" + s;
      assert t[..|t| - 1] == "0" + s[..|s| - 1];
      DecimalLeadingZero(s[..|s| - 1]);
    }
  }

  lemma {:induction false} DecimalNumeral(n: nat)
    ensures Decimal(Numeral(n)) == n
  {
    if n >= 10 {
      var s := Numeral(n);
      assert s[..|s| - 1] == Numeral(n / 10);
      DecimalNumeral(n / 10);
    }
  }

  lemma DecimalPad2Numeral(n: nat)
    ensures AllDigits(Pad2(Numeral(n))) && Decimal(Pad2(Numeral(n))) == Decimal(Numeral(n)) == n
  {
    DecimalNumeral(n);
    if |Numeral(n)| == 1 {
      DecimalLeadingZero(Numeral(n));
    }
  }

  lemma {:induction false} DecimalTwoDigits(s: string)
    requires |s| == 2 && IsDigit(s[0]) && IsDigit(s[1])
    ensures AllDigits(s) && Decimal(s) == 10 * DigitValue(s[0]) + DigitValue(s[1])
  {
    var first := s[..1];
    assert first[..0] == [] && first[0] == s[0];
    assert Decimal(first) == DigitValue(s[0]);
  }

  lemma {:induction false} FindColonAfterDigits(h: string, rest: string)
    requires AllDigits(h) && |rest| > 0 && rest[0] == ':'
    ensures FindColon(h + rest) == Some(|h|)
  {
    if |h| > 0 {
      AllDigitsChars(h);
      AllDigitsChars(h[1..]);
      assert IsDigit(h[0]);
      assert (h + rest)[1..] == h[1..] + rest;
      FindColonAfterDigits(h[1..], rest);
    }
  }

  lemma SplitAtColon(h: string, m: string)
    ensures (h + ":" + m)[..|h|] == h && (h + ":" + m)[|h| + 1..] == m
    ensures h + ":" + m == h + (":" + m)
  {
  }

  /** `H:M` splits at its only colon into the two digit runs. */
  lemma ParseParts(h: string, m: string)
    requires |h| > 0 && |m| > 0 && AllDigits(h) && AllDigits(m)
    ensures ParseTime(h + ":" + m) == Some(Decimal(h) * 60 + Decimal(m))
  {
    SplitAtColon(h, m);
    FindColonAfterDigits(h, ":" + m);
  }

  /** `timeToMinutes("HH:MM") == HH * 60 + MM` for a zero-padded clock time. */
  lemma ParseClockTime(s: string)
    requires IsClockTime(s)
    ensures ParseTime(s) == Some(ClockMinutes(s))
  {
    assert s == s[..2] + ":" + s[3..];
    DecimalTwoDigits(s[..2]);
    DecimalTwoDigits(s[3..]);
    ParseParts(s[..2], s[3..]);
  }

  /** Formatting then parsing gives back every non-negative minute count. */
  lemma {:induction false} FormatParseRoundTrip(minutes: nat)
    ensures ParseTime(FormatTime(minutes)) == Some(minutes)
  {
    DecimalPad2Numeral(minutes / 60);
    DecimalPad2Numeral(minutes % 60);
    ParseParts(Pad2(Numeral(minutes / 60)), Pad2(Numeral(minutes % 60)));
  }

  /** A number below 100, padded to two digits, reads back digit by digit. */
  lemma Pad2NumeralTwoDigits(n: nat)
    requires n < 100
    ensures var p := Pad2(Numeral(n));
      |p| == 2 && IsDigit(p[0]) && IsDigit(p[1]) && DigitValue(p[0]) == n / 10 && DigitValue(p[1]) == n % 10
  {
    if n >= 10 {
      assert Numeral(n) == Numeral(n / 10) + [DigitChar(n % 10)];
    }
  }

  /** Within one day the formatted time is a zero-padded clock time of the same minutes. */
  lemma FormatWithinDay(minutes: nat)
    requires minutes < 1440
    ensures IsClockTime(FormatTime(minutes))
    ensures ClockMinutes(FormatTime(minutes)) == minutes
  {
    var h, m := minutes / 60, minutes % 60;
    Pad2NumeralTwoDigits(h);
    Pad2NumeralTwoDigits(m);
    var p, q := Pad2(Numeral(h)), Pad2(Numeral(m));
    var s := FormatTime(minutes);
    assert s == p + ":" + q;
    assert s[0] == p[0] && s[1] == p[1] && s[2] == ':' && s[3] == q[0] && s[4] == q[1];
    assert Hours(s) == h;
    assert MinuteField(s) == m;
  }

  /**
   For zero-padded clock times the string order the backend uses agrees with
   the order of the minutes they denote.
   */
  lemma LexLessIsMinuteOrder(a: string, b: string)
    requires IsClockTime(a) && IsClockTime(b)
    ensures LexLess(a, b) <==> ClockMinutes(a) < ClockMinutes(b)
  {
    assert LexLess(a[4..], b[4..]) <==> a[4] < b[4] by {
      assert a[4..][1..] == [] && b[4..][1..] == [];
    }
    assert a[3..][1..] == a[4..] && b[3..][1..] == b[4..];
    assert a[2..][1..] == a[3..] && b[2..][1..] == b[3..];
    assert a[1..][1..] == a[2..] && b[1..][1..] == b[2..];
    assert LexLess(a[3..], b[3..]) <==> MinuteField(a) < MinuteField(b);
    assert LexLess(a[1..], b[1..]) <==> a[1] < b[1] || (a[1] == b[1] && MinuteField(a) < MinuteField(b));
    assert LexLess(a, b) <==> Hours(a) < Hours(b) || (Hours(a) == Hours(b) && MinuteField(a) < MinuteField(b));
  }
}

=== FILE: courses.dfy ===
/** The course record shared by the backend table and the browser client. */
module Courses {
  import opened LexOrder
  import opened Sorting

  /**
   One weekly course occurrence. `day` is the ISO weekday 1..7 when the data
   came through the form; the backend itself only rejects a zero day.
   Times are kept as the `HH:MM` strings stored in the table.
   */
  datatype Course = Course(
    name: string,
    teacher: string,
    classroom: string,
    day: int,
    start: string,
    end: string,
    weekRange: string,
    notes: string)

  /** `ORDER BY day_of_week, start_time`: by day, then by start string. */
  predicate ByDayThenStart(a: Course, b: Course) {
    a.day < b.day || (a.day == b.day && LexLess(a.start, b.start))
  }

  lemma ByDayThenStartIsStrictOrder()
    ensures StrictOrder(ByDayThenStart)
  {
    forall a: Course
      ensures !ByDayThenStart(a, a)
    {
      LexLessIrreflexive(a.start);
    }
    forall a: Course, b: Course, c: Course | ByDayThenStart(a, b) && ByDayThenStart(b, c)
      ensures ByDayThenStart(a, c)
    {
      if a.day == b.day && b.day == c.day {
        LexLessTransitive(a.start, b.start, c.start);
      }
    }
  }
}

=== FILE: grid.dfy ===
/**
 The schedule grid of `renderSchedule`: one row per period, one column per
 weekday 1..7, each cell showing the first course of that day that occupies
 the period.
 */
module Grid {
  import opened Options
  import opened Courses
  import opened Slots
  import opened PeriodForm

  /** Index of the first element of `s` that satisfies `p`. */
  function FirstIndex<T>(s: seq<T>, p: T -> bool): (r: Option<nat>)
    ensures r.Some? ==> r.value < |s| && p(s[r.value]) && forall j :: 0 <= j < r.value ==> !p(s[j])
    ensures r.None? <==> forall j :: 0 <= j < |s| ==> !p(s[j])
  {
    if |s| == 0 then None
    else if p(s[0]) then Some(0)
    else match FirstIndex(s[1..], p)
      case None => None
      case Some(k) => Some(k + 1)
  }

  /** `Array.prototype.find`: the first element that satisfies `p`, if any. */
  function Find<T>(s: seq<T>, p: T -> bool): Option<T> {
    match FirstIndex(s, p)
    case None => None
    case Some(k) => Some(s[k])
  }

  /** The elements of `s` that satisfy `p`, in order. */
  function Filter<T>(s: seq<T>, p: T -> bool): (r: seq<T>)
    ensures forall x :: x in r ==> x in s && p(x)
  {
    if |s| == 0 then []
    else
      var rest := Filter(s[..|s| - 1], p);
      var last := s[|s| - 1];
      assert s == s[..|s| - 1] + [last];
      if p(last) then rest + [last] else rest
  }

  /** Exactly the elements that pass are kept, each at most as often as in `s`. */
  lemma {:induction false} FilterExact<T>(s: seq<T>, p: T -> bool)
    ensures forall x :: x in Filter(s, p) <==> x in s && p(x)
    ensures multiset(Filter(s, p)) <= multiset(s)
  {
    if |s| > 0 {
      var init, last := s[..|s| - 1], s[|s| - 1];
      assert s == init + [last];
      FilterExact(init, p);
    }
  }

  /** Filtering a concatenation filters each part and keeps the parts in order. */
  lemma {:induction false} FilterAppend<T>(a: seq<T>, b: seq<T>, p: T -> bool)
    ensures Filter(a + b, p) == Filter(a, p) + Filter(b, p)
  {
    if |b| > 0 {
      var init := b[..|b| - 1];
      assert (a + b)[..|a + b| - 1] == a + init;
      assert b == init + [b[|b| - 1]];
      FilterAppend(a, init, p);
    } else {
      assert a + b == a;
    }
  }

  /** The first match in a concatenation lies in the first part, or else in the second. */
  lemma {:induction false} FirstIndexAppend<T>(a: seq<T>, b: seq<T>, p: T -> bool)
    ensures FirstIndex(a + b, p)
            == if FirstIndex(a, p).Some? then FirstIndex(a, p)
               else if FirstIndex(b, p).Some? then Some(|a| + FirstIndex(b, p).value)
               else None
    decreases |a|
  {
    if |a| == 0 {
      assert a + b == b;
    } else {
      assert (a + b)[0] == a[0];
      assert (a + b)[1..] == a[1..] + b;
      FirstIndexAppend(a[1..], b, p);
    }
  }

  /** Finding in a concatenation searches the second part only when the first has no match. */
  lemma FindAppend<T>(a: seq<T>, b: seq<T>, p: T -> bool)
    ensures Find(a + b, p) == if Find(a, p).Some? then Find(a, p) else Find(b, p)
  {
    FirstIndexAppend(a, b, p);
    var q := FirstIndex(b, p);
    if q.Some? {
      assert (a + b)[|a| + q.value] == b[q.value];
    }
  }

  /**
   Searching only the elements that pass `q` for one that passes `p` finds the
   same element as searching everything for one that passes both.
   */
  lemma {:induction false} FindFilter<T>(s: seq<T>, q: T -> bool, p: T -> bool, both: T -> bool)
    requires forall x :: both(x) == (q(x) && p(x))
    ensures Find(Filter(s, q), p) == Find(s, both)
    decreases |s|
  {
    if |s| > 0 {
      var init, last := s[..|s| - 1], s[|s| - 1];
      assert s == init + [last];
      FindFilter(init, q, p, both);
      FindAppend(init, [last], both);
      if q(last) {
        FindAppend(Filter(init, q), [last], p);
      }
    }
  }

  /** A course belongs in the cell of `day` and `slot`. */
  predicate Matches(c: Course, day: int, slot: Slot) {
    c.day == day && Occupies(c, slot)
  }

  function DayTest(day: int): Course -> bool {
    (c: Course) => c.day == day
  }

  /** The client's `find` callback for one period. */
  function SlotTest(slot: Slot): Course -> bool {
    (c: Course) => Occupies(c, slot)
  }

  /** A course of `day` that passes `test`. */
  function DayAnd(day: int, test: Course -> bool): Course -> bool {
    (c: Course) => c.day == day && test(c)
  }

  /** `dayCourses[day]`: the courses of one day, in list order. */
  function Bucket(courses: seq<Course>, day: int): (b: seq<Course>)
    ensures forall c :: c in b ==> c in courses && c.day == day
  {
    Filter(courses, DayTest(day))
  }

  /** `dayCourses[day]` holds every course of that day and no other, each at most as often as the list. */
  lemma BucketExact(courses: seq<Course>, day: int)
    ensures forall c :: c in Bucket(courses, day) <==> c in courses && c.day == day
    ensures multiset(Bucket(courses, day)) <= multiset(courses)
  {
    FilterExact(courses, DayTest(day));
  }

  /** The courses of a day keep their list order: bucketing a concatenation buckets each part. */
  lemma BucketAppend(a: seq<Course>, b: seq<Course>, day: int)
    ensures Bucket(a + b, day) == Bucket(a, day) + Bucket(b, day)
  {
    FilterAppend(a, b, DayTest(day));
  }

  /** The first course of the whole list that is on `day` and passes `test`. */
  function CellOf(courses: seq<Course>, day: int, test: Course -> bool): Option<Course> {
    Find(courses, DayAnd(day, test))
  }

  /** The content of a grid cell: the first course of the whole list that belongs in it. */
  function Cell(courses: seq<Course>, day: int, slot: Slot): Option<Course> {
    CellOf(courses, day, SlotTest(slot))
  }

  /** A cell is empty iff no course belongs in it, and otherwise holds the first one that does. */
  lemma CellIsFirstMatch(courses: seq<Course>, day: int, slot: Slot)
    ensures Cell(courses, day, slot).None? <==> forall j :: 0 <= j < |courses| ==> !Matches(courses[j], day, slot)
    ensures Cell(courses, day, slot).Some? ==>
      exists k :: 0 <= k < |courses| && courses[k] == Cell(courses, day, slot).value
                  && Matches(courses[k], day, slot)
                  && forall j :: 0 <= j < k ==> !Matches(courses[j], day, slot)
  {
    var p := DayAnd(day, SlotTest(slot));
    assert forall c :: p(c) == Matches(c, day, slot);
    var r := FirstIndex(courses, p);
    if r.Some? {
      var k := r.value;
      assert courses[k] == Cell(courses, day, slot).value;
    }
  }

  /**
   Looking a period up in the day's bucket, as the client does, finds the same
   course as scanning the whole list for the first course of that day.
   */
  lemma FindInBucketIsCell(courses: seq<Course>, day: int, test: Course -> bool)
    ensures Find(Bucket(courses, day), test) == CellOf(courses, day, test)
  {
    FindFilter(courses, DayTest(day), test, DayAnd(day, test));
  }

  predicate IsWeekday(d: int) {
    1 <= d <= 7
  }

  /** `dayCourses` is the list of each weekday's courses: `b[day - 1] == Bucket(courses, day)`. */
  ghost predicate Bucketed(b: seq<seq<Course>>, courses: seq<Course>) {
    |b| == 7 && forall day :: IsWeekday(day) ==> b[day - 1] == Bucket(courses, day)
  }

  /**
   The first half of `renderSchedule`: bucket the courses by weekday. A course
   whose day is outside 1..7 has no bucket and the client throws.
   */
  method BucketByDay(courses: seq<Course>) returns (buckets: Option<seq<seq<Course>>>)
    ensures buckets.None? <==> exists k :: 0 <= k < |courses| && !IsWeekday(courses[k].day)
    ensures buckets.Some? ==> Bucketed(buckets.value, courses)
  {
    var b: seq<seq<Course>> := [[], [], [], [], [], [], []];
    var n := 0;
    NothingBucketed(courses, b);
    while n < |courses|
      invariant n <= |courses|
      invariant Bucketed(b, courses[..n])
      invariant forall k :: 0 <= k < n ==> IsWeekday(courses[k].day)
    {
      var c := courses[n];
      if !IsWeekday(c.day) {
        return None;
      }
      BucketStep(courses, n, b);
      b := b[c.day - 1 := b[c.day - 1] + [c]];
      n := n + 1;
    }
    assert courses[..n] == courses;
    buckets := Some(b);
  }

  /** Before the loop every weekday's list is empty, as are the buckets of no courses. */
  lemma NothingBucketed(courses: seq<Course>, b: seq<seq<Course>>)
    requires b == [[], [], [], [], [], [], []]
    ensures Bucketed(b, courses[..0])
  {
    assert courses[..0] == [];
  }

  /** Appending course `n` to its day's list keeps every list equal to its bucket. */
  lemma BucketStep(courses: seq<Course>, n: nat, b: seq<seq<Course>>)
    requires n < |courses| && IsWeekday(courses[n].day) && Bucketed(b, courses[..n])
    ensures Bucketed(b[courses[n].day - 1 := b[courses[n].day - 1] + [courses[n]]], courses[..n + 1])
  {
    assert courses[..n + 1][..n] == courses[..n];
  }

  /** The cells of one row, Monday first, for the period test `test`. */
  function RowOf(courses: seq<Course>, test: Course -> bool): (row: seq<Option<Course>>)
    ensures |row| == 7
  {
    seq(7, d => CellOf(courses, d + 1, test))
  }

  /** One row of the grid: `find` with the period's test in each of the seven buckets. */
  function RenderRow(courses: seq<Course>, buckets: seq<seq<Course>>, test: Course -> bool): (row: seq<Option<Course>>)
    requires Bucketed(buckets, courses)
    ensures row == RowOf(courses, test)
  {
    var row := seq(7, d requires 0 <= d < 7 => Find(buckets[d], test));
    assert forall d :: 0 <= d < 7 ==> row[d] == RowOf(courses, test)[d] by {
      forall d | 0 <= d < 7
        ensures row[d] == RowOf(courses, test)[d]
      {
        FindInBucketIsCell(courses, d + 1, test);
      }
    }
    row
  }

  /**
   `renderSchedule`: no grid when some course's day is outside 1..7;
   otherwise each cell holds the first course of its day, in list order, that
   overlaps its period.
   */
  method RenderSchedule(courses: seq<Course>) returns (grid: Option<seq<seq<Option<Course>>>>)
    ensures grid.None? <==> exists k :: 0 <= k < |courses| && !IsWeekday(courses[k].day)
    ensures grid.Some? ==>
      && |grid.value| == |TimeSlots|
      && forall i :: 0 <= i < |TimeSlots| ==>
           && |grid.value[i]| == 7
           && forall day :: IsWeekday(day) ==> grid.value[i][day - 1] == Cell(courses, day, TimeSlots[i])
  {
    var buckets := BucketByDay(courses);
    if buckets.None? {
      return None;
    }
    var rows := RenderRows(courses, buckets.value, TimeSlots);
    forall i | 0 <= i < |TimeSlots|
      ensures forall day :: IsWeekday(day) ==> rows[i][day - 1] == Cell(courses, day, TimeSlots[i])
    {
      RowOfCells(courses, TimeSlots[i]);
    }
    grid := Some(rows);
  }

  /** Column `day - 1` of a period's row is that day's cell. */
  lemma RowOfCells(courses: seq<Course>, slot: Slot)
    ensures forall day :: IsWeekday(day) ==> RowOf(courses, SlotTest(slot))[day - 1] == Cell(courses, day, slot)
  {
  }

  /** The second half of `renderSchedule`: one row for each period, in order. */
  method RenderRows(courses: seq<Course>, buckets: seq<seq<Course>>, slots: seq<Slot>)
    returns (rows: seq<seq<Option<Course>>>)
    requires Bucketed(buckets, courses)
    ensures |rows| == |slots| && forall i :: 0 <= i < |slots| ==> rows[i] == RowOf(courses, SlotTest(slots[i]))
  {
    rows := [];
    while |rows| < |slots|
      invariant |rows| <= |slots| && forall i :: 0 <= i < |rows| ==> rows[i] == RowOf(courses, SlotTest(slots[i]))
    {
      rows := rows + [RenderRow(courses, buckets, SlotTest(slots[|rows|]))];
    }
  }

  /** A one-course list fills exactly the cells whose day and period it matches. */
  lemma SingleCourseCells(c: Course, day: int, slot: Slot)
    ensures Cell([c], day, slot) == if Matches(c, day, slot) then Some(c) else None
  {
    assert DayAnd(day, SlotTest(slot))(c) == Matches(c, day, slot);
  }

  /** Day 1, 08:00-08:45 fills day 1 of period 1 and no other cell. */
  lemma OnePeriodExample(c: Course)
    requires c.day == 1 && c.start == "08:00" && c.end == "08:45"
    ensures forall day, i :: IsWeekday(day) && 0 <= i < |TimeSlots| ==>
      Cell([c], day, TimeSlots[i]) == if day == 1 && i == 0 then Some(c) else None
  {
    SavedCourseOccupiesItsPeriods(1, 1, c);
    forall day, i | IsWeekday(day) && 0 <= i < |TimeSlots|
      ensures Cell([c], day, TimeSlots[i]) == if day == 1 && i == 0 then Some(c) else None
    {
      SingleCourseCells(c, day, TimeSlots[i]);
    }
  }

  /**
   Day 1, 08:00-09:40 overlaps periods 1 and 2 and is shown in both cells:
   the grid does not deduplicate a course across periods.
   */
  lemma TwoPeriodExample(c: Course)
    requires c.day == 1 && c.start == "08:00" && c.end == "09:40"
    ensures forall day, i :: IsWeekday(day) && 0 <= i < |TimeSlots| ==>
      Cell([c], day, TimeSlots[i]) == if day == 1 && i <= 1 then Some(c) else None
  {
    SavedCourseOccupiesItsPeriods(1, 2, c);
    forall day, i | IsWeekday(day) && 0 <= i < |TimeSlots|
      ensures Cell([c], day, TimeSlots[i]) == if day == 1 && i <= 1 then Some(c) else None
    {
      SingleCourseCells(c, day, TimeSlots[i]);
    }
  }
}

=== FILE: hexcolor.dfy ===
/**
 `adjustColor`: shift each channel of a `#RRGGBB` colour by `amount`,
 clamping to 0..255, and re-encode it. The client darkens every course colour
 by 20 for the second stop of its gradient.
 */
module HexColor {

  predicate IsHexDigit(c: char) {
    ('0' <= c <= '9') || ('a' <= c <= 'f') || ('A' <= c <= 'F')
  }

  /** A lower-case hex digit, as `Number.prototype.toString(16)` writes them. */
  predicate IsLowerHexDigit(c: char) {
    ('0' <= c <= '9') || ('a' <= c <= 'f')
  }

  predicate AllHex(s: string) {
    forall i :: 0 <= i < |s| ==> IsHexDigit(s[i])
  }

  predicate AllLowerHex(s: string) {
    forall i :: 0 <= i < |s| ==> IsLowerHexDigit(s[i])
  }

  function HexValue(c: char): (v: nat)
    requires IsHexDigit(c)
    ensures v < 16
  {
    if '0' <= c <= '9' then (c as int) - ('0' as int)
    else if 'a' <= c <= 'f' then (c as int) - ('a' as int) + 10
    else (c as int) - ('A' as int) + 10
  }

  function HexChar(v: nat): (c: char)
    requires v < 16
    ensures IsLowerHexDigit(c) && IsHexDigit(c) && HexValue(c) == v
  {
    if v < 10 then (('0' as int) + v) as char else (('a' as int) + v - 10) as char
  }

  /** `parseInt(s, 16)` of a string made only of hex digits. */
  function HexNumber(s: string): nat
    requires AllHex(s)
  {
    if |s| == 0 then 0 else 16 * HexNumber(s[..|s| - 1]) + HexValue(s[|s| - 1])
  }

  /** `n.toString(16)`: the shortest lower-case hex numeral. */
  function HexNumeral(n: nat): (s: string)
    ensures |s| >= 1 && AllLowerHex(s) && AllHex(s)
  {
    if n < 16 then [HexChar(n)] else HexNumeral(n / 16) + [HexChar(n % 16)]
  }

  /** `padStart(6, '0')`. */
  function PadStart6(s: string): (r: string)
    ensures |r| == if |s| < 6 then 6 else |s|
    decreases 6 - |s|
  {
    if |s| < 6 then PadStart6("0" + s) else s
  }

  function Clamp(v: int): (r: int)
    ensures 0 <= r <= 255
    ensures 0 <= v <= 255 ==> r == v
    ensures v < 0 ==> r == 0
    ensures v > 255 ==> r == 255
  {
    if v > 255 then 255 else if v < 0 then 0 else v
  }

  /** An optional '#' followed by exactly six hex digits. */
  predicate IsColor(color: string) {
    || (|color| == 7 && color[0] == '#' && AllHex(color[1..]))
    || (|color| == 6 && AllHex(color))
  }

  function Digits(color: string): (hex: string)
    requires IsColor(color)
    ensures |hex| == 6 && AllHex(hex)
  {
    if color[0] == '#' then color[1..] else color
  }

  /** Channel `k` (0 red, 1 green, 2 blue) read from its two hex digits. */
  function Channel(color: string, k: nat): (v: nat)
    requires IsColor(color) && k < 3
    ensures v < 256
  {
    var hex := Digits(color);
    16 * HexValue(hex[2 * k]) + HexValue(hex[2 * k + 1])
  }

  /**
   `adjustColor`. The six digits are read as one number; red is `num >> 16`,
   green `num >> 8 & 0xFF`, blue `num & 0xFF`; each is shifted and clamped,
   then `r << 16 | g << 8 | b` is written in hex, padded to six digits.
   */
  function AdjustColor(color: string, amount: int): (r: string)
    requires IsColor(color)
    ensures IsColor(r) && |r| == |color| && (r[0] == '#' <==> color[0] == '#')
    ensures AllLowerHex(Digits(r))
    ensures forall k :: 0 <= k < 3 ==> Channel(r, k) == Clamp(Channel(color, k) + amount)
  {
    var prefix := if color[0] == '#' then "#" else "";
    var num := HexNumber(Digits(color));
    var red := Clamp(num / 65536 + amount);
    var green := Clamp(num / 256 % 256 + amount);
    var blue := Clamp(num % 256 + amount);
    var packed := red * 65536 + green * 256 + blue;
    var hex := PadStart6(HexNumeral(packed));
    AdjustColorCorrect(color, amount, num, packed, hex);
    ResultChannels(color, amount, prefix, hex);
    prefix + hex
  }

  /** The re-encoded colour carries the adjusted channels in its digit pairs. */
  lemma ResultChannels(color: string, amount: int, prefix: string, hex: string)
    requires IsColor(color) && (prefix == "#" || prefix == "")
    requires |hex| == 6 && AllHex(hex)
    requires 16 * HexValue(hex[0]) + HexValue(hex[1]) == Clamp(Channel(color, 0) + amount)
    requires 16 * HexValue(hex[2]) + HexValue(hex[3]) == Clamp(Channel(color, 1) + amount)
    requires 16 * HexValue(hex[4]) + HexValue(hex[5]) == Clamp(Channel(color, 2) + amount)
    ensures IsColor(prefix + hex) && Digits(prefix + hex) == hex
    ensures forall k :: 0 <= k < 3 ==> Channel(prefix + hex, k) == Clamp(Channel(color, k) + amount)
  {
    PrefixedDigits(prefix, hex);
    forall k | 0 <= k < 3
      ensures Channel(prefix + hex, k) == Clamp(Channel(color, k) + amount)
    {
      PairAt(hex, k);
    }
  }

  /** Putting back the optional '#' gives a colour whose digits are `hex`. */
  lemma PrefixedDigits(prefix: string, hex: string)
    requires prefix == "#" || prefix == ""
    requires |hex| == 6 && AllHex(hex)
    ensures IsColor(prefix + hex) && Digits(prefix + hex) == hex
  {
    var r := prefix + hex;
    assert r[|prefix|..] == hex;
  }

  lemma PairAt(hex: string, k: nat)
    requires |hex| == 6 && AllHex(hex) && k < 3
    ensures k == 0 ==> hex[2 * k] == hex[0] && hex[2 * k + 1] == hex[1]
    ensures k == 1 ==> hex[2 * k] == hex[2] && hex[2 * k + 1] == hex[3]
    ensures k == 2 ==> hex[2 * k] == hex[4] && hex[2 * k + 1] == hex[5]
  {
  }

  lemma AdjustColorCorrect(color: string, amount: int, num: nat, packed: nat, hex: string)
    requires IsColor(color)
    requires num == HexNumber(Digits(color))
    requires packed == Clamp(num / 65536 + amount) * 65536 + Clamp(num / 256 % 256 + amount) * 256
                       + Clamp(num % 256 + amount)
    requires hex == PadStart6(HexNumeral(packed))
    ensures |hex| == 6 && AllLowerHex(hex) && AllHex(hex)
    ensures 16 * HexValue(hex[0]) + HexValue(hex[1]) == Clamp(Channel(color, 0) + amount)
    ensures 16 * HexValue(hex[2]) + HexValue(hex[3]) == Clamp(Channel(color, 1) + amount)
    ensures 16 * HexValue(hex[4]) + HexValue(hex[5]) == Clamp(Channel(color, 2) + amount)
  {
    var r, g, b := Clamp(Channel(color, 0) + amount), Clamp(Channel(color, 1) + amount), Clamp(Channel(color, 2) + amount);
    assert packed == r * 65536 + g * 256 + b by {
      DecodeChannels(color, num);
    }
    EncodeChannels(r, g, b, packed, hex);
  }

  /** Shifting and masking the parsed number yields the three two-digit channels. */
  lemma DecodeChannels(color: string, num: nat)
    requires IsColor(color)
    requires num == HexNumber(Digits(color))
    ensures num / 65536 == Channel(color, 0) && num / 256 % 256 == Channel(color, 1) && num % 256 == Channel(color, 2)
  {
    var hd := Digits(color);
    SixDigitChannels(hd);
    SplitBase256(num, Channel(color, 0), Channel(color, 1), Channel(color, 2));
  }

  /** Packing three channels and writing six hex digits puts each channel in its digit pair. */
  lemma EncodeChannels(r: nat, g: nat, b: nat, packed: nat, hex: string)
    requires r < 256 && g < 256 && b < 256
    requires packed == r * 65536 + g * 256 + b
    requires hex == PadStart6(HexNumeral(packed))
    ensures |hex| == 6 && AllLowerHex(hex) && AllHex(hex)
    ensures 16 * HexValue(hex[0]) + HexValue(hex[1]) == r
    ensures 16 * HexValue(hex[2]) + HexValue(hex[3]) == g
    ensures 16 * HexValue(hex[4]) + HexValue(hex[5]) == b
  {
    NumeralLength(packed);
    PadStart6Value(HexNumeral(packed));
    HexNumeralValue(packed);
    SixDigitChannels(hex);
    var d0, d1, d2 := 16 * HexValue(hex[0]) + HexValue(hex[1]), 16 * HexValue(hex[2]) + HexValue(hex[3]),
                      16 * HexValue(hex[4]) + HexValue(hex[5]);
    SplitBase256(packed, d0, d1, d2);
    SplitBase256(packed, r, g, b);
  }

  /** Six hex digits read as one number are three base-256 channels. */
  lemma SixDigitChannels(s: string)
    requires |s| == 6 && AllHex(s)
    ensures HexNumber(s) == (16 * HexValue(s[0]) + HexValue(s[1])) * 65536
                            + (16 * HexValue(s[2]) + HexValue(s[3])) * 256
                            + (16 * HexValue(s[4]) + HexValue(s[5]))
  {
    var s5, s4, s3, s2, s1 := s[..5], s[..4], s[..3], s[..2], s[..1];
    assert s1[..0] == [] && s1[0] == s[0];
    assert HexNumber(s1) == HexValue(s[0]);
    assert s2[..1] == s1 && s2[1] == s[1];
    assert HexNumber(s2) == 16 * HexValue(s[0]) + HexValue(s[1]);
    assert s3[..2] == s2 && s3[2] == s[2];
    assert HexNumber(s3) == 16 * HexNumber(s2) + HexValue(s[2]);
    assert s4[..3] == s3 && s4[3] == s[3];
    assert HexNumber(s4) == 16 * HexNumber(s3) + HexValue(s[3]);
    assert s5[..4] == s4 && s5[4] == s[4];
    assert HexNumber(s5) == 16 * HexNumber(s4) + HexValue(s[4]);
    assert HexNumber(s) == 16 * HexNumber(s5) + HexValue(s[5]);
  }

  /** The base-256 digits of a number below 2^24 are unique. */
  lemma SplitBase256(n: nat, r: nat, g: nat, b: nat)
    requires r < 256 && g < 256 && b < 256
    requires n == r * 65536 + g * 256 + b
    ensures n / 65536 == r && n / 256 % 256 == g && n % 256 == b
  {
    assert n / 256 == r * 256 + g;
  }

  lemma {:induction false} NumeralLength(n: nat)
    ensures n < 0x1000000 ==> |HexNumeral(n)| <= 6
    ensures n < 0x100000 ==> |HexNumeral(n)| <= 5
    ensures n < 0x10000 ==> |HexNumeral(n)| <= 4
    ensures n < 0x1000 ==> |HexNumeral(n)| <= 3
    ensures n < 0x100 ==> |HexNumeral(n)| <= 2
  {
    if n >= 16 {
      NumeralLength(n / 16);
    }
  }

  lemma {:induction false} HexNumeralValue(n: nat)
    ensures HexNumber(HexNumeral(n)) == n
  {
    if n >= 16 {
      var s := HexNumeral(n);
      assert s[..|s| - 1] == HexNumeral(n / 16);
      HexNumeralValue(n / 16);
    }
  }

  lemma {:induction false} LeadingZeroHex(s: string)
    requires AllHex(s)
    ensures AllHex("0" + s) && HexNumber("0" + s) == HexNumber(s)
    decreases |s|
  {
    if |s| > 0 {
      var t := "0" + s;
      assert t[..|t| - 1] == "0" + s[..|s| - 1];
      LeadingZeroHex(s[..|s| - 1]);
    }
  }

  lemma {:induction false} PadStart6Value(s: string)
    requires AllLowerHex(s) && AllHex(s) && |s| <= 6
    ensures AllLowerHex(PadStart6(s)) && AllHex(PadStart6(s))
    ensures HexNumber(PadStart6(s)) == HexNumber(s)
    decreases 6 - |s|
  {
    if |s| < 6 {
      LeadingZeroHex(s);
      PadStart6Value("0" + s);
    }
  }

  /** Two lower-case hex digits are determined by the byte they spell. */
  lemma LowerHexPair(a: char, b: char, v: nat)
    requires IsLowerHexDigit(a) && IsLowerHexDigit(b) && 16 * HexValue(a) + HexValue(b) == v
    ensures a == HexChar(v / 16) && b == HexChar(v % 16)
  {
  }

  /** A lower-case '#'-colour is spelled out by its three channels. */
  lemma SpelledByChannels(r: string)
    requires IsColor(r) && r[0] == '#' && AllLowerHex(Digits(r))
    ensures r == ['#', HexChar(Channel(r, 0) / 16), HexChar(Channel(r, 0) % 16),
                  HexChar(Channel(r, 1) / 16), HexChar(Channel(r, 1) % 16),
                  HexChar(Channel(r, 2) / 16), HexChar(Channel(r, 2) % 16)]
  {
    var hex := Digits(r);
    LowerHexPair(hex[0], hex[1], Channel(r, 0));
    LowerHexPair(hex[2], hex[3], Channel(r, 1));
    LowerHexPair(hex[4], hex[5], Channel(r, 2));
  }

  lemma FirstPaletteChannels()
    ensures IsColor("#27ae60")
    ensures Channel("#27ae60", 0) == 39 && Channel("#27ae60", 1) == 174 && Channel("#27ae60", 2) == 96
  {
    assert Digits("#27ae60") == "27ae60";
  }

  /** The gradient's darker stop for the first palette colour. */
  lemma DarkenFirstPaletteColor()
    ensures AdjustColor("#27ae60", -20) == "#139a4c"
  {
    FirstPaletteChannels();
    var r := AdjustColor("#27ae60", -20);
    assert Channel(r, 0) == 19 && Channel(r, 1) == 154 && Channel(r, 2) == 76;
    SpelledByChannels(r);
  }
}

=== FILE: lexorder.dfy ===
/**
 Lexicographic order on strings, as Python's `<` on `str` and SQLite's BINARY
 collation compare them: code point by code point, a proper prefix first.
 */
module LexOrder {

  /** `a` sorts strictly before `b`. */
  predicate LexLess(a: string, b: string)
    decreases |a|
  {
    if |a| == 0 then |b| > 0
    else if |b| == 0 then false
    else if a[0] != b[0] then a[0] < b[0]
    else LexLess(a[1..], b[1..])
  }

  lemma {:induction false} LexLessIrreflexive(a: string)
    ensures !LexLess(a, a)
    decreases |a|
  {
    if |a| > 0 {
      LexLessIrreflexive(a[1..]);
    }
  }

  lemma {:induction false} LexLessTransitive(a: string, b: string, c: string)
    requires LexLess(a, b) && LexLess(b, c)
    ensures LexLess(a, c)
    decreases |a|
  {
    if |a| > 0 && |b| > 0 && |c| > 0 && a[0] == b[0] && b[0] == c[0] {
      LexLessTransitive(a[1..], b[1..], c[1..]);
    }
  }

  /** Any two different strings are ordered one way or the other. */
  lemma {:induction false} LexLessTotal(a: string, b: string)
    requires a != b
    ensures LexLess(a, b) || LexLess(b, a)
    decreases |a|
  {
    if |a| > 0 && |b| > 0 && a[0] == b[0] {
      assert a == [a[0]] + a[1..] && b == [b[0]] + b[1..];
      LexLessTotal(a[1..], b[1..]);
    }
  }

  lemma LexLessAsymmetric(a: string, b: string)
    requires LexLess(a, b)
    ensures !LexLess(b, a)
  {
    if LexLess(b, a) {
      LexLessTransitive(a, b, a);
      LexLessIrreflexive(a);
    }
  }
}

=== FILE: options.dfy ===
/** Optional values and error-carrying results shared by every module. */
module Options {

  /** A value that may be absent: JavaScript `null`/`NaN`, Python `None`. */
  datatype Option<+T> = None | Some(value: T) {

    /** The wrapped value, or `default` when absent. */
    function GetOr(default: T): T {
      match this
      case Some(v) => v
      case None => default
    }
  }

  /** The outcome of an operation that can be rejected with an error. */
  datatype Result<+T, +E> = Ok(value: T) | Err(error: E)
}

=== FILE: palette.dfy ===
/**
 Course colours: `getCourseColor` memoises one palette colour per course
 name, handing out the sixteen palette entries in order and cycling.
 */
module Palette {
  import opened Sequences

  const Colors: seq<string> := [
    "#27ae60", "#e67e22", "#16a085", "#8e44ad",
    "#c0392b", "#2980b9", "#f39c12", "#1abc9c",
    "#34495e", "#95a5a6", "#d35400", "#9b59b6",
    "#e74c3c", "#3498db", "#2ecc71", "#f1c40f"
  ]

  /** `courseColorMap`: course name to colour. */
  type ColorMap = map<string, string>

  /**
   `getCourseColor`: a name already in the map keeps its colour and the map is
   unchanged; a new name gets the palette entry indexed by the number of names
   assigned so far, modulo the palette size.
   */
  function GetCourseColor(m: ColorMap, name: string): (r: (string, ColorMap))
    ensures name in m ==> r == (m[name], m)
    ensures name !in m ==> r.0 == Colors[|m| % |Colors|] && r.1 == m[name := r.0] && |r.1| == |m| + 1
  {
    if name in m then (m[name], m)
    else
      var color := Colors[|m| % |Colors|];
      (color, m[name := color])
  }

  /** The reset and first pass of `loadCourses`: colour every name from an empty map. */
  function AssignColors(names: seq<string>): (m: ColorMap)
    ensures forall n :: n in m <==> n in names
  {
    if |names| == 0 then map[]
    else
      var init := names[..|names| - 1];
      assert names == init + [names[|names| - 1]];
      GetCourseColor(AssignColors(init), names[|names| - 1]).1
  }

  /**
   After the first pass, the k-th distinct name in order of first appearance
   has palette colour `k mod 16`, and there are as many entries as distinct names.
   */
  lemma {:induction false} AssignColorsByFirstAppearance(names: seq<string>)
    ensures |AssignColors(names)| == |Dedup(names)|
    ensures forall k :: 0 <= k < |Dedup(names)| ==>
      Dedup(names)[k] in AssignColors(names) && AssignColors(names)[Dedup(names)[k]] == Colors[k % |Colors|]
  {
    if |names| > 0 {
      var init, last := names[..|names| - 1], names[|names| - 1];
      assert names == init + [last];
      AssignColorsByFirstAppearance(init);
      DedupAppend(init, last);
      if last !in init {
        NewNameGetsNextColor(init, last);
      } else {
        assert AssignColors(names) == AssignColors(init);
      }
    }
  }

  /** The step of the induction above for a name not seen before. */
  lemma NewNameGetsNextColor(init: seq<string>, last: string)
    requires last !in init
    requires |AssignColors(init)| == |Dedup(init)|
    requires forall k :: 0 <= k < |Dedup(init)| ==>
      Dedup(init)[k] in AssignColors(init) && AssignColors(init)[Dedup(init)[k]] == Colors[k % |Colors|]
    ensures |AssignColors(init + [last])| == |Dedup(init + [last])|
    ensures forall k :: 0 <= k < |Dedup(init + [last])| ==>
      Dedup(init + [last])[k] in AssignColors(init + [last])
      && AssignColors(init + [last])[Dedup(init + [last])[k]] == Colors[k % |Colors|]
  {
    var names := init + [last];
    var m, d := AssignColors(init), Dedup(init);
    var c := Colors[|m| % |Colors|];
    assert AssignColors(names) == m[last := c] by {
      assert names[..|names| - 1] == init;
    }
    assert Dedup(names) == d + [last] by {
      DedupAppend(init, last);
    }
    ExtendColoring(m, d, last);
  }

  /** Giving a fresh name the next palette entry extends a first-appearance colouring by one. */
  lemma ExtendColoring(m: ColorMap, d: seq<string>, last: string)
    requires |m| == |d| && last !in m
    requires forall k :: 0 <= k < |d| ==> d[k] in m && m[d[k]] == Colors[k % |Colors|]
    ensures forall k :: 0 <= k < |d| + 1 ==>
      (d + [last])[k] in m[last := Colors[|m| % |Colors|]]
      && m[last := Colors[|m| % |Colors|]][(d + [last])[k]] == Colors[k % |Colors|]
  {
    var c := Colors[|m| % |Colors|];
    var m', d' := m[last := c], d + [last];
    forall k | 0 <= k < |d'|
      ensures d'[k] in m' && m'[d'[k]] == Colors[k % |Colors|]
    {
      if k < |d| {
        assert d'[k] == d[k] && d[k] in m;
      }
    }
  }

  /** The 17th distinct name gets the 1st name's colour, and so on every 16 names. */
  lemma PaletteCycles(names: seq<string>, k: nat)
    requires k + |Colors| < |Dedup(names)|
    ensures Dedup(names)[k] in AssignColors(names) && Dedup(names)[k + |Colors|] in AssignColors(names)
    ensures AssignColors(names)[Dedup(names)[k + |Colors|]] == AssignColors(names)[Dedup(names)[k]]
  {
    AssignColorsByFirstAppearance(names);
    assert |Colors| == 16;
    assert (k + 16) % 16 == k % 16;
  }

  /**
   Once every name of the list is coloured, rendering any of them again
   (`createCourseElement`) returns its colour and leaves the map unchanged.
   */
  lemma RenderingKeepsColors(names: seq<string>, k: nat)
    requires k < |names|
    ensures GetCourseColor(AssignColors(names), names[k]) == (AssignColors(names)[names[k]], AssignColors(names))
  {
    AssignColorsByFirstAppearance(names);
  }
}

=== FILE: periodform.dfy ===
/**
 The course form works in teaching periods 1..8 rather than times:
 `saveCourse` turns a start and an end period into times, and `editCourse`
 turns stored times back into periods with `getPeriodByTime`.
 */
module PeriodForm {
  import opened Options
  import opened Clock
  import opened Courses
  import opened Slots

  function Starts(): (r: seq<string>)
    ensures |r| == |TimeSlots| && forall i :: 0 <= i < |r| ==> r[i] == TimeSlots[i].start
  {
    seq(|TimeSlots|, i requires 0 <= i < |TimeSlots| => TimeSlots[i].start)
  }

  function Ends(): (r: seq<string>)
    ensures |r| == |TimeSlots| && forall i :: 0 <= i < |r| ==> r[i] == TimeSlots[i].end
  {
    seq(|TimeSlots|, i requires 0 <= i < |TimeSlots| => TimeSlots[i].end)
  }

  /** The 1-based period of the first entry of `times[from..]` equal to `time`. */
  function FirstPeriodFrom(times: seq<string>, time: string, from: nat): (r: Option<nat>)
    requires from <= |times|
    ensures r.Some? ==> from < r.value <= |times| && times[r.value - 1] == time
                        && forall j :: from <= j < r.value - 1 ==> times[j] != time
    ensures r.None? ==> forall j :: from <= j < |times| ==> times[j] != time
    decreases |times| - from
  {
    if from == |times| then None
    else if times[from] == time then Some(from + 1)
    else FirstPeriodFrom(times, time, from + 1)
  }

  /** `getPeriodByTime`: the period whose start time is `time`, or null. */
  function GetPeriodByTime(time: string): Option<nat> {
    FirstPeriodFrom(Starts(), time, 0)
  }

  /** Period start times are pairwise different, and so are period end times. */
  lemma TimesDistinct()
    ensures forall i, j :: 0 <= i < j < |TimeSlots| ==> TimeSlots[i].start != TimeSlots[j].start
    ensures forall i, j :: 0 <= i < j < |TimeSlots| ==> TimeSlots[i].end != TimeSlots[j].end
  {
  }

  /** Every period is found from its own start time, and nothing else is found. */
  lemma GetPeriodByTimeInvertsStart(time: string)
    ensures forall i :: 0 <= i < |TimeSlots| ==> GetPeriodByTime(TimeSlots[i].start) == Some(i + 1)
    ensures GetPeriodByTime(time).None? <==> forall i :: 0 <= i < |TimeSlots| ==> TimeSlots[i].start != time
  {
    var starts := Starts();
    TimesDistinct();
    forall i | 0 <= i < |TimeSlots|
      ensures GetPeriodByTime(TimeSlots[i].start) == Some(i + 1)
    {
      FindsDistinct(starts, i);
    }
  }

  /** In a list without repeats, the search finds each entry at its own position. */
  lemma FindsDistinct(times: seq<string>, i: nat)
    requires i < |times| && forall j :: 0 <= j < |times| && j != i ==> times[j] != times[i]
    ensures FirstPeriodFrom(times, times[i], 0) == Some(i + 1)
  {
    var r := FirstPeriodFrom(times, times[i], 0);
    assert r.Some?;
    assert times[r.value - 1] == times[i];
  }

  /** Why `saveCourse` refuses a period choice. */
  datatype FormError =
    | MissingPeriod   // a period is unset (`parseInt` gave NaN) or 0
    | EndBeforeStart  // the end period precedes the start period
    | NoSuchPeriod    // `timeSlots[p - 1]` is undefined and reading it throws

  /** A period value from the form: NaN and 0 are falsy. */
  predicate IsSet(p: Option<int>) {
    p.Some? && p.value != 0
  }

  predicate IsPeriod(p: int) {
    1 <= p <= |TimeSlots|
  }

  /**
   The validation and period-to-time part of `saveCourse`: both periods must be
   chosen, the end may not precede the start, and then the course runs from the
   start of the first period to the end of the last.
   */
  function PeriodsToTimes(startPeriod: Option<int>, endPeriod: Option<int>): (r: Result<(string, string), FormError>)
    ensures r == Err(MissingPeriod) <==> !IsSet(startPeriod) || !IsSet(endPeriod)
    ensures r == Err(EndBeforeStart) <==> IsSet(startPeriod) && IsSet(endPeriod) && endPeriod.value < startPeriod.value
    ensures r.Ok? <==> IsSet(startPeriod) && IsSet(endPeriod)
                       && IsPeriod(startPeriod.value) && IsPeriod(endPeriod.value)
                       && startPeriod.value <= endPeriod.value
    ensures r.Ok? ==> IsClockTime(r.value.0) && IsClockTime(r.value.1)
                      && ClockMinutes(r.value.0) < ClockMinutes(r.value.1)
  {
    if !IsSet(startPeriod) || !IsSet(endPeriod) then Err(MissingPeriod)
    else
      var s, e := startPeriod.value, endPeriod.value;
      if e < s then Err(EndBeforeStart)
      else if !IsPeriod(s) || !IsPeriod(e) then Err(NoSuchPeriod)
      else
        PeriodTimesOrdered(s, e);
        Ok((TimeSlots[s - 1].start, TimeSlots[e - 1].end))
  }

  lemma PeriodTimesOrdered(s: int, e: int)
    requires IsPeriod(s) && IsPeriod(e) && s <= e
    ensures IsClockTime(TimeSlots[s - 1].start) && IsClockTime(TimeSlots[e - 1].end)
    ensures ClockMinutes(TimeSlots[s - 1].start) < ClockMinutes(TimeSlots[e - 1].end)
  {
    SpanOrdered(s - 1, e - 1);
  }

  lemma SpanOrdered(i: nat, j: nat)
    requires i <= j < |TimeSlots|
    ensures IsClockTime(TimeSlots[i].start) && IsClockTime(TimeSlots[j].end)
    ensures StartMinutes(i) < EndMinutes(j)
  {
    SlotWellFormed(i);
    SlotWellFormed(j);
    if i < j {
      SlotsOrdered(i, j);
    }
  }

  /** What `saveCourse` stores for an accepted period choice. */
  lemma SavedTimes(s: int, e: int, c: Course)
    requires PeriodsToTimes(Some(s), Some(e)).Ok?
    requires (c.start, c.end) == PeriodsToTimes(Some(s), Some(e)).value
    ensures IsPeriod(s) && IsPeriod(e) && s <= e
    ensures c.start == TimeSlots[s - 1].start && c.end == TimeSlots[e - 1].end
  {
  }

  /**
   A course saved from periods `s..e` occupies exactly those periods of the
   grid and no others.
   */
  lemma SavedCourseOccupiesItsPeriods(s: int, e: int, c: Course)
    requires PeriodsToTimes(Some(s), Some(e)).Ok?
    requires (c.start, c.end) == PeriodsToTimes(Some(s), Some(e)).value
    ensures forall k :: 0 <= k < |TimeSlots| ==> (Occupies(c, TimeSlots[k]) <==> s - 1 <= k <= e - 1)
  {
    SavedTimes(s, e, c);
    var first: nat, last: nat := s - 1, e - 1;
    forall k | 0 <= k < |TimeSlots|
      ensures Occupies(c, TimeSlots[k]) <==> first <= k <= last
    {
      SpanOccupies(first, last, c, k);
    }
  }

  /** Period `k` overlaps the span from the start of period `i` to the end of period `j` iff it lies in it. */
  lemma SpanOccupies(i: nat, j: nat, c: Course, k: nat)
    requires i <= j < |TimeSlots| && k < |TimeSlots|
    requires c.start == TimeSlots[i].start && c.end == TimeSlots[j].end
    ensures Occupies(c, TimeSlots[k]) <==> i <= k <= j
  {
    SlotParses(i);
    SlotParses(j);
    SlotParses(k);
    OccupiesByMinutes(c, TimeSlots[k], StartMinutes(i), EndMinutes(j), StartMinutes(k), EndMinutes(k));
    SpanOverlap(i, j, k);
  }

  /** In minutes: period `k` overlaps the span of periods `i..j` iff `i <= k <= j`. */
  lemma SpanOverlap(i: nat, j: nat, k: nat)
    requires i <= j < |TimeSlots| && k < |TimeSlots|
    ensures Overlaps(StartMinutes(i), EndMinutes(j), StartMinutes(k), EndMinutes(k)) <==> i <= k <= j
  {
    SlotWellFormed(k);
    if k < i {
      SlotsOrdered(k, i);
    } else if k > j {
      SlotsOrdered(j, k);
    } else {
      if k < j {
        SlotsOrdered(k, j);
      }
      if i < k {
        SlotsOrdered(i, k);
      }
    }
  }

  /**
   `editCourse` as written: both stored times are looked up among period
   START times, the end time included.
   */
  function EditPeriods(c: Course): (Option<nat>, Option<nat>) {
    (GetPeriodByTime(c.start), GetPeriodByTime(c.end))
  }

  /** No period ends at the moment another period starts. */
  lemma NoEndIsAStart()
    ensures forall i, j :: 0 <= i < |TimeSlots| && 0 <= j < |TimeSlots| ==> TimeSlots[i].end != TimeSlots[j].start
  {
  }

  /**
   Reopening any course saved through the form shows its start period but an
   empty end period, since its end time is no period's start time.
   */
  lemma EditFormLosesEndPeriod(s: int, e: int, c: Course)
    requires PeriodsToTimes(Some(s), Some(e)).Ok?
    requires (c.start, c.end) == PeriodsToTimes(Some(s), Some(e)).value
    ensures EditPeriods(c) == (Some(s), None)
  {
    GetPeriodByTimeInvertsStart(c.end);
    NoEndIsAStart();
  }

  /** The period whose end time is `time`, or null. */
  function GetPeriodByEndTime(time: string): Option<nat> {
    FirstPeriodFrom(Ends(), time, 0)
  }

  /** `editCourse` with the end time looked up among period end times. */
  function EditPeriodsCorrected(c: Course): (Option<nat>, Option<nat>) {
    (GetPeriodByTime(c.start), GetPeriodByEndTime(c.end))
  }

  /** Saving periods `s..e` and reopening the course gives back `s` and `e`. */
  lemma EditPeriodsRoundTrip(s: int, e: int, c: Course)
    requires PeriodsToTimes(Some(s), Some(e)).Ok?
    requires (c.start, c.end) == PeriodsToTimes(Some(s), Some(e)).value
    ensures EditPeriodsCorrected(c) == (Some(s), Some(e))
  {
    SavedTimes(s, e, c);
    GetPeriodByTimeInvertsStart(c.start);
    GetPeriodByEndTimeInvertsEnd();
  }

  /** Every period is found from its own end time. */
  lemma GetPeriodByEndTimeInvertsEnd()
    ensures forall i :: 0 <= i < |TimeSlots| ==> GetPeriodByEndTime(TimeSlots[i].end) == Some(i + 1)
  {
    var ends := Ends();
    TimesDistinct();
    forall i | 0 <= i < |TimeSlots|
      ensures GetPeriodByEndTime(TimeSlots[i].end) == Some(i + 1)
    {
      FindsDistinct(ends, i);
    }
  }
}

=== FILE: sequences.dfy ===
/** Sequence helpers: first-appearance deduplication. */
module Sequences {

  predicate NoDuplicates<T(==)>(s: seq<T>) {
    forall i, j :: 0 <= i < j < |s| ==> s[i] != s[j]
  }

  /**
   The distinct elements of `s` in order of first appearance: the key order of
   a Python dict filled by walking `s`. A JavaScript object keeps the same
   order only for keys that are not integer-like ("1", "42" come first, in
   numeric order).
   */
  function Dedup<T(==)>(s: seq<T>): (d: seq<T>)
    ensures |d| <= |s|
  {
    if |s| == 0 then []
    else
      var prefix := Dedup(s[..|s| - 1]);
      var last := s[|s| - 1];
      if last in prefix then prefix else prefix + [last]
  }

  /** Deduplication keeps exactly the elements of `s`, each once. */
  lemma {:induction false} DedupMembers<T(!new)>(s: seq<T>)
    ensures NoDuplicates(Dedup(s))
    ensures forall x :: x in Dedup(s) <==> x in s
  {
    if |s| > 0 {
      var init := s[..|s| - 1];
      var last := s[|s| - 1];
      DedupMembers(init);
      assert s == init + [last];
      assert forall x :: x in s <==> x in init || x == last;
    }
  }

  lemma DedupAppend<T(!new)>(s: seq<T>, x: T)
    ensures Dedup(s + [x]) == if x in s then Dedup(s) else Dedup(s) + [x]
  {
    assert (s + [x])[..|s|] == s;
    DedupMembers(s);
  }

  /** A sequence without repeats holds each value at most once. */
  lemma {:induction false} NoDuplicatesCountsOnce<T>(s: seq<T>, x: T)
    requires NoDuplicates(s)
    ensures multiset(s)[x] <= 1
  {
    if |s| > 0 {
      var init := s[..|s| - 1];
      assert s == init + [s[|s| - 1]];
      assert NoDuplicates(init);
      NoDuplicatesCountsOnce(init, x);
      if x == s[|s| - 1] {
        assert x !in init;
      }
    }
  }

  /** A value found at two positions is counted at least twice. */
  lemma RepeatCountsTwice<T>(s: seq<T>, i: nat, j: nat)
    requires i < j < |s| && s[i] == s[j]
    ensures multiset(s)[s[i]] >= 2
  {
    assert s == s[..j] + [s[j]] + s[j + 1..];
    assert s[i] in s[..j];
  }
}

=== FILE: slots.dfy ===
/**
 The fixed table of eight 45-minute teaching periods and the half-open
 overlap test the client uses to place a course in a period.
 */
module Slots {
  import opened Options
  import opened Clock
  import opened Courses

  /** One display period `[start, end)`; the period label is presentation only. */
  datatype Slot = Slot(start: string, end: string)

  /**
   Four morning periods from 08:00 and four afternoon periods from 14:00,
   45 minutes each, with 10-minute breaks and a 30-minute break after the
   second period of each half-day.
   */
  const TimeSlots: seq<Slot> := [
    Slot("08:00", "08:45"),
    Slot("08:55", "09:40"),
    Slot("10:10", "10:55"),
    Slot("11:05", "11:50"),
    Slot("14:00", "14:45"),
    Slot("14:55", "15:40"),
    Slot("16:10", "16:55"),
    Slot("17:05", "17:50")
  ]

  /** `isTimeInSlot`: `[start, end)` and `[otherStart, otherEnd)` overlap. */
  predicate Overlaps(start: int, end: int, otherStart: int, otherEnd: int) {
    start < otherEnd && end > otherStart
  }

  predicate InInterval(t: int, start: int, end: int) {
    start <= t < end
  }

  /**
   For all intervals, empty ones included: the test is symmetric, and
   intervals that merely touch do not overlap.
   */
  lemma OverlapSymmetric(start: int, end: int, otherStart: int, otherEnd: int)
    ensures Overlaps(start, end, otherStart, otherEnd) == Overlaps(otherStart, otherEnd, start, end)
    ensures end == otherStart || start == otherEnd ==> !Overlaps(start, end, otherStart, otherEnd)
  {
  }

  /**
   For non-empty intervals, overlap means the two half-open intervals share a
   minute (an empty interval holds no minute, yet can overlap by the test).
   */
  lemma OverlapMeansSharedMinute(start: int, end: int, otherStart: int, otherEnd: int)
    requires start < end && otherStart < otherEnd
    ensures Overlaps(start, end, otherStart, otherEnd)
            <==> exists t :: InInterval(t, start, end) && InInterval(t, otherStart, otherEnd)
    ensures Overlaps(start, end, otherStart, otherEnd) == Overlaps(otherStart, otherEnd, start, end)
    ensures end == otherStart || start == otherEnd ==> !Overlaps(start, end, otherStart, otherEnd)
  {
    OverlapSymmetric(start, end, otherStart, otherEnd);
    if Overlaps(start, end, otherStart, otherEnd) {
      var t := if start < otherStart then otherStart else start;
      assert InInterval(t, start, end) && InInterval(t, otherStart, otherEnd);
    }
  }

  /** A non-empty interval that contains, or lies within, another non-empty one overlaps it. */
  lemma ContainmentOverlaps(start: int, end: int, otherStart: int, otherEnd: int)
    requires start < end && otherStart < otherEnd
    requires (start <= otherStart && otherEnd <= end) || (otherStart <= start && end <= otherEnd)
    ensures Overlaps(start, end, otherStart, otherEnd)
  {
  }

  /**
   The grid's test of a course against a period. The client converts all four
   times with `timeToMinutes`; a malformed time gives NaN, and every comparison
   with NaN is false, so such a course occupies no period.
   */
  predicate Occupies(c: Course, slot: Slot) {
    match (ParseTime(c.start), ParseTime(c.end), ParseTime(slot.start), ParseTime(slot.end))
    case (Some(cs), Some(ce), Some(ss), Some(se)) => Overlaps(cs, ce, ss, se)
    case _ => false
  }

  function StartMinutes(i: nat): nat
    requires i < |TimeSlots|
  {
    ClockMinutes(TimeSlots[i].start)
  }

  function EndMinutes(i: nat): nat
    requires i < |TimeSlots|
  {
    ClockMinutes(TimeSlots[i].end)
  }

  /**
   The table is well formed: eight periods of zero-padded times, each lasting
   exactly 45 minutes, each ending strictly before the next one starts.
   */
  lemma SlotTableWellFormed()
    ensures |TimeSlots| == 8
    ensures forall i :: 0 <= i < |TimeSlots| ==>
      IsClockTime(TimeSlots[i].start) && IsClockTime(TimeSlots[i].end)
    ensures forall i :: 0 <= i < |TimeSlots| ==> EndMinutes(i) == StartMinutes(i) + 45
    ensures forall i :: 0 <= i < |TimeSlots| - 1 ==> EndMinutes(i) < StartMinutes(i + 1)
  {
    forall i | 0 <= i < |TimeSlots|
      ensures IsClockTime(TimeSlots[i].start) && IsClockTime(TimeSlots[i].end)
      ensures EndMinutes(i) == StartMinutes(i) + 45
    {
      SlotWellFormed(i);
    }
    forall i | 0 <= i < |TimeSlots| - 1
      ensures EndMinutes(i) < StartMinutes(i + 1)
    {
      SlotWellFormed(i);
      SlotWellFormed(i + 1);
    }
  }

  const PeriodStarts: seq<nat> := [480, 535, 610, 665, 840, 895, 970, 1025]

  /** One period at a time: zero-padded times, 45 minutes long, and its place in the day. */
  lemma SlotWellFormed(i: nat)
    requires i < |TimeSlots|
    ensures IsClockTime(TimeSlots[i].start) && IsClockTime(TimeSlots[i].end)
    ensures EndMinutes(i) == StartMinutes(i) + 45
    ensures StartMinutes(i) == PeriodStarts[i]
  {
    if i < 4 {
      MorningSlot(i);
    } else {
      AfternoonSlot(i);
    }
  }

  lemma MorningSlot(i: nat)
    requires i < 4
    ensures IsClockTime(TimeSlots[i].start) && IsClockTime(TimeSlots[i].end)
    ensures EndMinutes(i) == StartMinutes(i) + 45
    ensures StartMinutes(i) == PeriodStarts[i]
  {
    if i == 0 {
      SlotIs(i, "08:00", "08:45");
    } else if i == 1 {
      SlotIs(i, "08:55", "09:40");
    } else if i == 2 {
      SlotIs(i, "10:10", "10:55");
    } else {
      SlotIs(i, "11:05", "11:50");
    }
  }

  lemma AfternoonSlot(i: nat)
    requires 4 <= i < |TimeSlots|
    ensures IsClockTime(TimeSlots[i].start) && IsClockTime(TimeSlots[i].end)
    ensures EndMinutes(i) == StartMinutes(i) + 45
    ensures StartMinutes(i) == PeriodStarts[i]
  {
    if i == 4 {
      SlotIs(i, "14:00", "14:45");
    } else if i == 5 {
      SlotIs(i, "14:55", "15:40");
    } else if i == 6 {
      SlotIs(i, "16:10", "16:55");
    } else {
      SlotIs(i, "17:05", "17:50");
    }
  }

  lemma SlotIs(i: nat, start: string, end: string)
    requires i < |TimeSlots| && TimeSlots[i] == Slot(start, end)
    requires IsClockTime(start) && IsClockTime(end)
    requires ClockMinutes(start) == PeriodStarts[i] && ClockMinutes(end) == PeriodStarts[i] + 45
    ensures IsClockTime(TimeSlots[i].start) && IsClockTime(TimeSlots[i].end)
    ensures EndMinutes(i) == StartMinutes(i) + 45
    ensures StartMinutes(i) == PeriodStarts[i]
  {
  }

  /** Periods are ordered and pairwise disjoint, and each time parses to its clock minutes. */
  lemma SlotsDisjoint()
    ensures forall i, j :: 0 <= i < j < |TimeSlots| ==> EndMinutes(i) < StartMinutes(j)
    ensures forall i, j :: 0 <= i < |TimeSlots| && 0 <= j < |TimeSlots| && i != j ==>
      !Overlaps(StartMinutes(i), EndMinutes(i), StartMinutes(j), EndMinutes(j))
    ensures forall i :: 0 <= i < |TimeSlots| ==>
      ParseTime(TimeSlots[i].start) == Some(StartMinutes(i)) && ParseTime(TimeSlots[i].end) == Some(EndMinutes(i))
  {
    SlotTableWellFormed();
    forall i, j | 0 <= i < j < |TimeSlots|
      ensures EndMinutes(i) < StartMinutes(j)
    {
      var k := i;
      while k + 1 < j
        invariant i <= k < j
        invariant EndMinutes(i) < StartMinutes(k + 1)
      {
        k := k + 1;
      }
    }
    forall i | 0 <= i < |TimeSlots|
      ensures ParseTime(TimeSlots[i].start) == Some(StartMinutes(i))
      ensures ParseTime(TimeSlots[i].end) == Some(EndMinutes(i))
    {
      ParseClockTime(TimeSlots[i].start);
      ParseClockTime(TimeSlots[i].end);
    }
  }

  /** Occupying a period is the overlap test on the parsed minutes. */
  lemma OccupiesByMinutes(c: Course, slot: Slot, cs: int, ce: int, ss: int, se: int)
    requires ParseTime(c.start) == Some(cs) && ParseTime(c.end) == Some(ce)
    requires ParseTime(slot.start) == Some(ss) && ParseTime(slot.end) == Some(se)
    ensures Occupies(c, slot) <==> Overlaps(cs, ce, ss, se)
  {
  }

  /** Period `i` ends before a later period `j` starts. */
  lemma SlotsOrdered(i: nat, j: nat)
    requires i < j < |TimeSlots|
    ensures StartMinutes(i) < EndMinutes(i) < StartMinutes(j) < EndMinutes(j)
  {
    SlotsDisjoint();
    SlotWellFormed(i);
    SlotWellFormed(j);
  }

  /** Both times of period `i` parse to its clock minutes. */
  lemma SlotParses(i: nat)
    requires i < |TimeSlots|
    ensures ParseTime(TimeSlots[i].start) == Some(StartMinutes(i)) && ParseTime(TimeSlots[i].end) == Some(EndMinutes(i))
    ensures StartMinutes(i) < EndMinutes(i)
  {
    SlotWellFormed(i);
    ParseClockTime(TimeSlots[i].start);
    ParseClockTime(TimeSlots[i].end);
  }

  /**
   With well-formed course times, occupying a period is exactly overlapping it
   in minutes.
   */
  lemma OccupiesIsOverlap(c: Course, i: nat)
    requires i < |TimeSlots|
    requires ParseTime(c.start).Some? && ParseTime(c.end).Some?
    ensures Occupies(c, TimeSlots[i])
            <==> Overlaps(ParseTime(c.start).value, ParseTime(c.end).value, StartMinutes(i), EndMinutes(i))
  {
    SlotsDisjoint();
  }

  /**
   The test compares endpoints only, so a zero-length course strictly inside a
   period still occupies it.
   */
  lemma ZeroLengthCourseOccupies(c: Course)
    requires c.start == "08:20" && c.end == "08:20"
    ensures Occupies(c, TimeSlots[0])
  {
    ParseClockTime(c.start);
    SlotsDisjoint();
  }
}

=== FILE: sorting.dfy ===
/** A stable insertion sort, parameterised by a strict "sorts before" relation. */
module Sorting {

  ghost predicate StrictOrder<T(!new)>(before: (T, T) -> bool) {
    && (forall a :: !before(a, a))
    && (forall a, b, c :: before(a, b) && before(b, c) ==> before(a, c))
  }

  /** No element sorts before an element to its left. */
  predicate SortedBy<T>(s: seq<T>, before: (T, T) -> bool) {
    forall i, j :: 0 <= i < j < |s| ==> !before(s[j], s[i])
  }

  /** Prepending an element that nothing in `s` sorts before keeps `s` sorted. */
  lemma PrependSorted<T(!new)>(y: T, s: seq<T>, before: (T, T) -> bool)
    requires SortedBy(s, before)
    requires forall e :: e in s ==> !before(e, y)
    ensures SortedBy([y] + s, before)
  {
    var r := [y] + s;
    forall i, j | 0 <= i < j < |r|
      ensures !before(r[j], r[i])
    {
      assert r[j] == s[j - 1];
      if i > 0 {
        assert r[i] == s[i - 1];
      }
    }
  }

  /** Inserts `x` after every element it does not sort before (so after its equals). */
  function Insert<T(!new)>(x: T, s: seq<T>, before: (T, T) -> bool): (r: seq<T>)
    requires StrictOrder(before)
    requires SortedBy(s, before)
    ensures SortedBy(r, before)
    ensures multiset(r) == multiset(s) + multiset{x}
    ensures |r| == |s| + 1
  {
    if |s| == 0 then [x]
    else if before(x, s[0]) then
      InsertFront(x, s, before);
      [x] + s
    else
      var rest := Insert(x, s[1..], before);
      InsertBehind(x, s, rest, before);
      [s[0]] + rest
  }

  lemma InsertFront<T(!new)>(x: T, s: seq<T>, before: (T, T) -> bool)
    requires StrictOrder(before)
    requires SortedBy(s, before)
    requires |s| > 0 && before(x, s[0])
    ensures SortedBy([x] + s, before)
    ensures multiset([x] + s) == multiset(s) + multiset{x}
  {
    forall e | e in s
      ensures !before(e, x)
    {
      var j :| 0 <= j < |s| && s[j] == e;
      assert j == 0 || !before(s[j], s[0]);
    }
    PrependSorted(x, s, before);
  }

  lemma InsertBehind<T(!new)>(x: T, s: seq<T>, rest: seq<T>, before: (T, T) -> bool)
    requires StrictOrder(before)
    requires SortedBy(s, before)
    requires |s| > 0 && !before(x, s[0])
    requires SortedBy(rest, before)
    requires multiset(rest) == multiset(s[1..]) + multiset{x}
    ensures SortedBy([s[0]] + rest, before)
    ensures multiset([s[0]] + rest) == multiset(s) + multiset{x}
  {
    assert s == [s[0]] + s[1..];
    forall e | e in rest
      ensures !before(e, s[0])
    {
      assert e in multiset(rest);
      if e != x {
        assert e in multiset(s[1..]);
        var j :| 0 <= j < |s[1..]| && s[1..][j] == e;
        assert s[j + 1] == e;
      }
    }
    PrependSorted(s[0], rest, before);
  }

  /** Sorts `s`, processing it left to right so that equal elements keep their order. */
  function Sort<T(!new)>(s: seq<T>, before: (T, T) -> bool): (r: seq<T>)
    requires StrictOrder(before)
    ensures SortedBy(r, before)
    ensures multiset(r) == multiset(s)
    ensures |r| == |s|
  {
    if |s| == 0 then []
    else
      assert s == s[..|s| - 1] + [s[|s| - 1]];
      Insert(s[|s| - 1], Sort(s[..|s| - 1], before), before)
  }

  /** Two orders that agree on every pair drawn from `[x] + s` insert `x` at the same place. */
  lemma {:induction false} InsertAgrees<T(!new)>(x: T, s: seq<T>, before: (T, T) -> bool, other: (T, T) -> bool)
    requires StrictOrder(before) && StrictOrder(other)
    requires SortedBy(s, before) && SortedBy(s, other)
    requires forall a, b :: a in [x] + s && b in [x] + s ==> before(a, b) == other(a, b)
    ensures Insert(x, s, before) == Insert(x, s, other)
  {
    if |s| > 0 {
      assert s[0] in [x] + s;
      if !before(x, s[0]) {
        var tail := s[1..];
        assert forall a :: a in [x] + tail ==> a in [x] + s;
        assert SortedBy(tail, before) && SortedBy(tail, other);
        InsertAgrees(x, tail, before, other);
      }
    }
  }

  /** Sorting depends only on how the order compares the elements actually present. */
  lemma {:induction false} SortAgrees<T(!new)>(s: seq<T>, before: (T, T) -> bool, other: (T, T) -> bool)
    requires StrictOrder(before) && StrictOrder(other)
    requires forall a, b :: a in s && b in s ==> before(a, b) == other(a, b)
    ensures Sort(s, before) == Sort(s, other)
  {
    if |s| > 0 {
      var init := s[..|s| - 1];
      var x := s[|s| - 1];
      assert s == init + [x];
      SortAgrees(init, before, other);
      var sorted := Sort(init, before);
      forall a | a in [x] + sorted
        ensures a in s
      {
        if a != x {
          assert a in multiset(sorted);
        }
      }
      InsertAgrees(x, sorted, before, other);
    }
  }

  /** The first `n` elements of `s` in order. */
  function Smallest<T(!new)>(s: seq<T>, n: nat, before: (T, T) -> bool): (r: seq<T>)
    requires StrictOrder(before)
    ensures |r| == if n < |s| then n else |s|
    ensures SortedBy(r, before)
    ensures multiset(r) <= multiset(s)
    ensures forall c, x :: c in multiset(s) - multiset(r) && x in r ==> !before(c, x)
  {
    var t := Sort(s, before);
    var k := if n < |t| then n else |t|;
    SortedPrefix(t, k, before);
    t[..k]
  }

  /** A prefix of a sorted sequence is sorted, and nothing after it sorts before anything in it. */
  lemma SortedPrefix<T(!new)>(t: seq<T>, k: nat, before: (T, T) -> bool)
    requires SortedBy(t, before) && k <= |t|
    ensures SortedBy(t[..k], before)
    ensures multiset(t[..k]) <= multiset(t)
    ensures forall c, x :: c in multiset(t) - multiset(t[..k]) && x in t[..k] ==> !before(c, x)
  {
    assert t == t[..k] + t[k..];
    assert multiset(t) == multiset(t[..k]) + multiset(t[k..]);
    forall c, x | c in multiset(t) - multiset(t[..k]) && x in t[..k]
      ensures !before(c, x)
    {
      assert c in multiset(t[k..]);
      var j :| 0 <= j < |t[k..]| && t[k..][j] == c;
      var i :| 0 <= i < k && t[..k][i] == x;
      assert t[k + j] == c && t[i] == x;
    }
  }

  /** An element that sorts before every other element is kept whenever anything is kept. */
  lemma SmallestKeepsMinimum<T(!new)>(s: seq<T>, n: nat, before: (T, T) -> bool, c: T)
    requires StrictOrder(before)
    requires 0 < n && c in s
    requires forall y :: y in s ==> y == c || before(c, y)
    ensures c in Smallest(s, n, before)
  {
    var r := Smallest(s, n, before);
    var first := r[0];
    assert first in multiset(s);
    assert first == c || c !in multiset(s) - multiset(r);
  }

  /**
   An element that occurs once and sorts after every other element is dropped
   when fewer than all elements are kept.
   */
  lemma SmallestDropsMaximum<T(!new)>(s: seq<T>, n: nat, before: (T, T) -> bool, c: T)
    requires StrictOrder(before)
    requires n < |s| && multiset(s)[c] == 1
    requires forall y :: y in s ==> y == c || before(y, c)
    ensures c !in Smallest(s, n, before)
  {
    var r := Smallest(s, n, before);
    var dropped := multiset(s) - multiset(r);
    assert multiset(s) == multiset(r) + dropped;
    assert |dropped| > 0;
    var d :| d in dropped;
    assert d in multiset(s);
    assert d == c || before(d, c);
  }
}

=== FILE: statistics.dfy ===
/**
 The backend's `/api/statistics` aggregation: how many courses there are, the
 total scheduled minutes, and the minutes per course name, largest first.
 Hours and percentages are floating-point presentations of these integers.
 */
module Statistics {
  import opened Options
  import opened Clock
  import opened Courses
  import opened Sequences
  import opened Sorting

  /** A row reduced to what the statistics use: its name and its duration in minutes. */
  datatype Timed = Timed(name: string, minutes: int)

  /** One element of the distribution: a course name and its summed minutes. */
  datatype Entry = Entry(name: string, minutes: int)

  datatype Stats = Stats(totalCourses: nat, totalMinutes: int, distribution: seq<Entry>)

  /**
   `time_to_minutes` on both times, end minus start (negative when the end is
   before the start); `None` is the ValueError that fails the request.
   */
  function TimeRow(c: Course): (r: Option<Timed>)
    ensures r.Some? <==> ParseTime(c.start).Some? && ParseTime(c.end).Some?
    ensures r.Some? ==> r.value.name == c.name && r.value.minutes == ParseTime(c.end).value - ParseTime(c.start).value
  {
    match (ParseTime(c.start), ParseTime(c.end))
    case (Some(s), Some(e)) => Some(Timed(c.name, e as int - s as int))
    case _ => None
  }

  /** Every row timed, or `None` when some row's times do not parse. */
  function TimeRows(rows: seq<Course>): (r: Option<seq<Timed>>)
    ensures r.None? <==> exists c :: c in rows && TimeRow(c).None?
    ensures r.Some? ==> |r.value| == |rows| && forall i :: 0 <= i < |rows| ==> TimeRow(rows[i]) == Some(r.value[i])
  {
    if |rows| == 0 then Some([])
    else
      var init := rows[..|rows| - 1];
      assert rows == init + [rows[|rows| - 1]];
      match (TimeRows(init), TimeRow(rows[|rows| - 1]))
      case (Some(ts), Some(t)) => Some(ts + [t])
      case (None, _) => None
      case (_, None) => None
  }

  /** The course names, row by row. */
  function Names(ts: seq<Timed>): (r: seq<string>)
    ensures |r| == |ts|
    ensures forall i :: 0 <= i < |ts| ==> r[i] == ts[i].name
  {
    if |ts| == 0 then [] else Names(ts[..|ts| - 1]) + [ts[|ts| - 1].name]
  }

  /** Sum of durations over all rows. */
  function TotalMinutes(ts: seq<Timed>): int {
    if |ts| == 0 then 0 else TotalMinutes(ts[..|ts| - 1]) + ts[|ts| - 1].minutes
  }

  /** Sum of durations over the rows named `name`. */
  function MinutesOf(ts: seq<Timed>, name: string): int {
    if |ts| == 0 then 0
    else
      var last := ts[|ts| - 1];
      MinutesOf(ts[..|ts| - 1], name) + (if last.name == name then last.minutes else 0)
  }

  /** The entry of each name in `names`, in that order. */
  function Entries(names: seq<string>, ts: seq<Timed>): (r: seq<Entry>)
    ensures |r| == |names|
    ensures forall i :: 0 <= i < |names| ==> r[i].name == names[i]
  {
    if |names| == 0 then []
    else
      var n := names[|names| - 1];
      Entries(names[..|names| - 1], ts) + [Entry(n, MinutesOf(ts, n))]
  }

  /** The aggregated map in dict order: one entry per distinct name, in order of first appearance. */
  function Tally(ts: seq<Timed>): seq<Entry> {
    Entries(Dedup(Names(ts)), ts)
  }

  function SumMinutes(es: seq<Entry>): int {
    if |es| == 0 then 0 else SumMinutes(es[..|es| - 1]) + es[|es| - 1].minutes
  }

  /** `sort(key=minutes, reverse=True)`: more minutes first. */
  predicate MoreMinutes(a: Entry, b: Entry) {
    a.minutes > b.minutes
  }

  lemma MoreMinutesIsStrictOrder()
    ensures StrictOrder(MoreMinutes)
  {
  }

  lemma NamesAppend(ts: seq<Timed>, t: Timed)
    ensures Names(ts + [t]) == Names(ts) + [t.name]
  {
    assert (ts + [t])[..|ts|] == ts;
  }

  /** A name that labels no row has no minutes. */
  lemma {:induction false} MinutesOfAbsent(ts: seq<Timed>, name: string)
    requires name !in Names(ts)
    ensures MinutesOf(ts, name) == 0
  {
    if |ts| > 0 {
      var init := ts[..|ts| - 1];
      assert Names(ts) == Names(init) + [ts[|ts| - 1].name];
      MinutesOfAbsent(init, name);
    }
  }

  /** Adding one row adds its minutes to the sum of every listed name it carries. */
  lemma {:induction false} EntriesAddRow(names: seq<string>, ts: seq<Timed>, t: Timed)
    requires NoDuplicates(names)
    ensures SumMinutes(Entries(names, ts + [t]))
            == SumMinutes(Entries(names, ts)) + (if t.name in names then t.minutes else 0)
  {
    assert (ts + [t])[..|ts|] == ts;
    if |names| > 0 {
      var init := names[..|names| - 1];
      var n := names[|names| - 1];
      assert names == init + [n];
      assert NoDuplicates(init);
      EntriesAddRow(init, ts, t);
      assert t.name in names <==> t.name in init || t.name == n;
      assert n !in init;
    }
  }

  /** The per-name minutes of the distribution add up to the total. */
  lemma {:induction false} TallyAddsUp(ts: seq<Timed>)
    ensures SumMinutes(Tally(ts)) == TotalMinutes(ts)
  {
    if |ts| > 0 {
      var init := ts[..|ts| - 1];
      var t := ts[|ts| - 1];
      assert ts == init + [t];
      TallyAddsUp(init);
      TallyAddRow(init, t);
    }
  }

  /** One more row adds its minutes to the tally, whether its name is new or not. */
  lemma TallyAddRow(init: seq<Timed>, t: Timed)
    ensures SumMinutes(Tally(init + [t])) == SumMinutes(Tally(init)) + t.minutes
  {
    var ts := init + [t];
    NamesAppend(init, t);
    DedupAppend(Names(init), t.name);
    var d := Dedup(Names(init));
    DedupMembers(Names(init));
    EntriesAddRow(d, init, t);
    if t.name !in Names(init) {
      var d' := d + [t.name];
      assert d'[..|d|] == d;
      MinutesOfAbsent(init, t.name);
      assert ts[..|init|] == init;
      var e := Entry(t.name, MinutesOf(ts, t.name));
      assert Entries(d', ts) == Entries(d, ts) + [e];
      assert e.minutes == t.minutes;
      SumMinutesConcat(Entries(d, ts), [e]);
      assert SumMinutes([e]) == t.minutes by {
        assert [e][..0] == [];
      }
    }
  }

  lemma {:induction false} SumMinutesConcat(a: seq<Entry>, b: seq<Entry>)
    ensures SumMinutes(a + b) == SumMinutes(a) + SumMinutes(b)
  {
    if |b| == 0 {
      assert a + b == a;
    } else {
      var init := b[..|b| - 1];
      assert (a + b)[..|a + b| - 1] == a + init;
      assert (a + b)[|a + b| - 1] == b[|b| - 1];
      SumMinutesConcat(a, init);
    }
  }

  /** Reordering entries does not change their sum. */
  lemma {:induction false} SumMinutesPermutation(a: seq<Entry>, b: seq<Entry>)
    requires multiset(a) == multiset(b)
    ensures SumMinutes(a) == SumMinutes(b)
    decreases |a|
  {
    if |a| == 0 {
      assert |b| == |multiset(b)| == 0;
    } else {
      var x := a[|a| - 1];
      var i := LastFoundIn(a, b);
      var rest := RemoveAt(b, i);
      SumMinutesPermutation(a[..|a| - 1], rest);
    }
  }

  /** Where the last entry of `a` sits in its permutation `b`; `a` without it is `b` without that one. */
  ghost function LastFoundIn(a: seq<Entry>, b: seq<Entry>): (i: nat)
    requires |a| > 0 && multiset(a) == multiset(b)
    ensures i < |b| && b[i] == a[|a| - 1]
    ensures multiset(a[..|a| - 1]) == multiset(b) - multiset{b[i]}
  {
    assert a == a[..|a| - 1] + [a[|a| - 1]];
    assert a[|a| - 1] in multiset(b);
    var i :| 0 <= i < |b| && b[i] == a[|a| - 1];
    i
  }

  /** `b` without its `i`-th entry: one copy fewer, and that entry's minutes fewer. */
  function RemoveAt(b: seq<Entry>, i: nat): (r: seq<Entry>)
    requires i < |b|
    ensures multiset(r) == multiset(b) - multiset{b[i]}
    ensures SumMinutes(r) == SumMinutes(b) - b[i].minutes
    ensures |r| == |b| - 1
  {
    var r := b[..i] + b[i + 1..];
    assert b == b[..i] + [b[i]] + b[i + 1..];
    assert multiset(b) == multiset(b[..i]) + multiset{b[i]} + multiset(b[i + 1..]);
    SumMinutesConcat(b[..i] + [b[i]], b[i + 1..]);
    SumMinutesConcat(b[..i], [b[i]]);
    SumMinutesConcat(b[..i], b[i + 1..]);
    assert SumMinutes([b[i]]) == b[i].minutes by {
      assert [b[i]][..0] == [];
    }
    r
  }

  /**
   `get_statistics`: time every row (failing on a malformed time), fill the
   name-to-minutes map and the total in one pass, then sort the entries by
   minutes, largest first.
   */
  method GetStatistics(rows: seq<Course>) returns (r: Option<Stats>)
    ensures r.None? <==> exists c :: c in rows && TimeRow(c).None?
    ensures r.Some? ==> TimeRows(rows).Some?
    ensures r.Some? ==> r.value.totalCourses == |rows| && r.value.totalMinutes == TotalMinutes(TimeRows(rows).value)
    ensures r.Some? ==> SortedBy(r.value.distribution, MoreMinutes)
    ensures r.Some? ==> multiset(r.value.distribution) == multiset(Tally(TimeRows(rows).value))
  {
    var timed := TimeRows(rows);
    if timed.None? {
      return None;
    }
    var ts := timed.value;
    var minutes, order, total := Accumulate(ts);
    MinutesMapSums(ts);
    DedupMembers(Names(ts));
    var entries := ListEntries(ts, minutes, order);
    MoreMinutesIsStrictOrder();
    r := Some(Stats(|rows|, total, Sort(entries, MoreMinutes)));
  }

  /** `course_time_map` after the rows of `ts`, filled in row order. */
  function MinutesMap(ts: seq<Timed>): map<string, int> {
    if |ts| == 0 then map[]
    else
      var m := MinutesMap(ts[..|ts| - 1]);
      var t := ts[|ts| - 1];
      m[t.name := (if t.name in m then m[t.name] else 0) + t.minutes]
  }

  /** The map has a key for exactly the names that occur, holding that name's summed minutes. */
  lemma {:induction false} MinutesMapSums(ts: seq<Timed>)
    ensures forall n :: n in MinutesMap(ts) <==> n in Names(ts)
    ensures forall n :: n in MinutesMap(ts) ==> MinutesMap(ts)[n] == MinutesOf(ts, n)
  {
    if |ts| > 0 {
      var init := ts[..|ts| - 1];
      var t := ts[|ts| - 1];
      MinutesMapSums(init);
      assert ts == init + [t];
      NamesAppend(init, t);
      if t.name !in MinutesMap(init) {
        MinutesOfAbsent(init, t.name);
      }
    }
  }

  /** The loop over the rows: the map from name to minutes, its key order, and the total. */
  method Accumulate(ts: seq<Timed>) returns (minutes: map<string, int>, order: seq<string>, total: int)
    ensures minutes == MinutesMap(ts) && order == Dedup(Names(ts)) && total == TotalMinutes(ts)
  {
    minutes := map[];
    order := [];
    total := 0;
    var i := 0;
    while i < |ts|
      invariant 0 <= i <= |ts|
      invariant minutes == MinutesMap(ts[..i])
      invariant order == Dedup(Names(ts[..i]))
      invariant total == TotalMinutes(ts[..i])
    {
      minutes, order, total := CountRow(ts, i, minutes, order, total);
      i := i + 1;
    }
    assert ts[..i] == ts;
  }

  /** One iteration: add row `i`'s minutes under its name, appending the name to the key order if new. */
  method CountRow(ts: seq<Timed>, i: nat, minutes: map<string, int>, order: seq<string>, total: int)
    returns (minutes': map<string, int>, order': seq<string>, total': int)
    requires i < |ts|
    requires minutes == MinutesMap(ts[..i]) && order == Dedup(Names(ts[..i])) && total == TotalMinutes(ts[..i])
    ensures minutes' == MinutesMap(ts[..i + 1])
    ensures order' == Dedup(Names(ts[..i + 1]))
    ensures total' == TotalMinutes(ts[..i + 1])
  {
    order' := NextOrder(ts, i, minutes, order);
    minutes' := NextMinutes(ts, i, minutes);
    total' := NextTotal(ts, i, total);
  }

  /** The key order grows by row `i`'s name exactly when the map has no key for it yet. */
  function NextOrder(ts: seq<Timed>, i: nat, minutes: map<string, int>, order: seq<string>): (order': seq<string>)
    requires i < |ts| && minutes == MinutesMap(ts[..i]) && order == Dedup(Names(ts[..i]))
    ensures order' == Dedup(Names(ts[..i + 1]))
  {
    OrderStep(ts, i, order);
    KnownName(ts, i, order);
    if ts[i].name in minutes then order else order + [ts[i].name]
  }

  /** Row `i`'s minutes added under its name, starting from 0 for a new name. */
  function NextMinutes(ts: seq<Timed>, i: nat, minutes: map<string, int>): (minutes': map<string, int>)
    requires i < |ts| && minutes == MinutesMap(ts[..i])
    ensures minutes' == MinutesMap(ts[..i + 1])
  {
    MapStep(ts, i, minutes);
    var t := ts[i];
    minutes[t.name := (if t.name in minutes then minutes[t.name] else 0) + t.minutes]
  }

  function NextTotal(ts: seq<Timed>, i: nat, total: int): (total': int)
    requires i < |ts| && total == TotalMinutes(ts[..i])
    ensures total' == TotalMinutes(ts[..i + 1])
  {
    TotalStep(ts, i);
    total + ts[i].minutes
  }

  lemma MapStep(ts: seq<Timed>, i: nat, m: map<string, int>)
    requires i < |ts| && m == MinutesMap(ts[..i])
    ensures MinutesMap(ts[..i + 1]) == m[ts[i].name := (if ts[i].name in m then m[ts[i].name] else 0) + ts[i].minutes]
  {
    assert ts[..i + 1][..i] == ts[..i];
  }

  /** The key order after row `i`: unchanged for a known name, extended by a new one. */
  lemma OrderStep(ts: seq<Timed>, i: nat, order: seq<string>)
    requires i < |ts| && order == Dedup(Names(ts[..i]))
    ensures Dedup(Names(ts[..i + 1])) == if ts[i].name in order then order else order + [ts[i].name]
  {
    assert ts[..i + 1] == ts[..i] + [ts[i]];
    NamesAppend(ts[..i], ts[i]);
    DedupAppend(Names(ts[..i]), ts[i].name);
  }

  /** Row `i`'s name is already a key exactly when it is already in the key order. */
  lemma KnownName(ts: seq<Timed>, i: nat, order: seq<string>)
    requires i < |ts| && order == Dedup(Names(ts[..i]))
    ensures ts[i].name in MinutesMap(ts[..i]) <==> ts[i].name in order
  {
    MinutesMapSums(ts[..i]);
    DedupMembers(Names(ts[..i]));
  }

  lemma TotalStep(ts: seq<Timed>, i: nat)
    requires i < |ts|
    ensures TotalMinutes(ts[..i + 1]) == TotalMinutes(ts[..i]) + ts[i].minutes
  {
    assert ts[..i + 1][..i] == ts[..i];
  }

  /** The loop over the map's keys, in insertion order, building the entries. */
  method ListEntries(ts: seq<Timed>, minutes: map<string, int>, order: seq<string>) returns (entries: seq<Entry>)
    requires forall n :: n in order ==> n in minutes && minutes[n] == MinutesOf(ts, n)
    ensures entries == Entries(order, ts)
  {
    entries := [];
    var k := 0;
    while k < |order|
      invariant 0 <= k <= |order|
      invariant entries == Entries(order[..k], ts)
    {
      assert order[..k + 1][..k] == order[..k];
      entries := entries + [Entry(order[k], minutes[order[k]])];
      k := k + 1;
    }
    assert order[..k] == order;
  }

  /**
   What the client draws from the statistics: an entry for every course name
   and for nothing else, each holding the minutes of all rows of that name,
   and the distribution adds up to the total.
   */
  lemma DistributionSummary(ts: seq<Timed>, s: Stats)
    requires multiset(s.distribution) == multiset(Tally(ts)) && s.totalMinutes == TotalMinutes(ts)
    ensures SumMinutes(s.distribution) == s.totalMinutes
    ensures forall e :: e in s.distribution <==> e in Tally(ts)
    ensures forall e :: e in s.distribution ==> e.minutes == MinutesOf(ts, e.name)
    ensures forall n :: n in Names(ts) <==> exists e :: e in s.distribution && e.name == n
    ensures |s.distribution| == |Dedup(Names(ts))|
    ensures forall i, j :: 0 <= i < j < |s.distribution| ==> s.distribution[i].name != s.distribution[j].name
  {
    DistributionAddsUp(ts, s);
    DistributionIsTally(ts, s);
    TallyEntries(Dedup(Names(ts)), ts);
    DistributionNames(ts, s);
    DistributionOnePerName(ts, s);
  }

  /** One entry per distinct course name: no name is listed twice. */
  lemma DistributionOnePerName(ts: seq<Timed>, s: Stats)
    requires multiset(s.distribution) == multiset(Tally(ts))
    ensures |s.distribution| == |Dedup(Names(ts))|
    ensures forall i, j :: 0 <= i < j < |s.distribution| ==> s.distribution[i].name != s.distribution[j].name
  {
    var d, tally, dist := Dedup(Names(ts)), Tally(ts), s.distribution;
    assert |dist| == |multiset(dist)| == |multiset(tally)| == |tally|;
    DedupMembers(Names(ts));
    TallyEntries(d, ts);
    DistributionIsTally(ts, s);
    assert NoDuplicates(tally) by {
      forall i, j | 0 <= i < j < |tally|
        ensures tally[i] != tally[j]
      {
        assert tally[i].name == d[i] && tally[j].name == d[j];
      }
    }
    forall i, j | 0 <= i < j < |dist|
      ensures dist[i].name != dist[j].name
    {
      if dist[i].name == dist[j].name {
        assert dist[i] in tally && dist[j] in tally;
        assert dist[i] == dist[j];
        RepeatCountsTwice(dist, i, j);
        NoDuplicatesCountsOnce(tally, dist[i]);
        assert false;
      }
    }
  }

  lemma DistributionAddsUp(ts: seq<Timed>, s: Stats)
    requires multiset(s.distribution) == multiset(Tally(ts)) && s.totalMinutes == TotalMinutes(ts)
    ensures SumMinutes(s.distribution) == s.totalMinutes
  {
    TallyAddsUp(ts);
    SumMinutesPermutation(s.distribution, Tally(ts));
  }

  lemma DistributionIsTally(ts: seq<Timed>, s: Stats)
    requires multiset(s.distribution) == multiset(Tally(ts))
    ensures forall e :: e in s.distribution <==> e in Tally(ts)
  {
    forall e
      ensures e in s.distribution <==> e in Tally(ts)
    {
      assert e in s.distribution <==> e in multiset(s.distribution);
    }
  }

  lemma DistributionNames(ts: seq<Timed>, s: Stats)
    requires multiset(s.distribution) == multiset(Tally(ts))
    ensures forall n :: n in Names(ts) <==> exists e :: e in s.distribution && e.name == n
  {
    var d := Dedup(Names(ts));
    DistributionIsTally(ts, s);
    TallyEntries(d, ts);
    DedupMembers(Names(ts));
    forall n | n in Names(ts)
      ensures exists e :: e in s.distribution && e.name == n
    {
      var j :| 0 <= j < |d| && d[j] == n;
      assert Tally(ts)[j] in s.distribution;
    }
  }

  lemma {:induction false} TallyEntries(names: seq<string>, ts: seq<Timed>)
    ensures forall e :: e in Entries(names, ts) ==> e.minutes == MinutesOf(ts, e.name) && e.name in names
  {
    if |names| > 0 {
      TallyEntries(names[..|names| - 1], ts);
    }
  }
}

=== FILE: store.dfy ===
/**
 The backend's `courses` table and the write endpoints: `add_course`,
 `update_course`, `delete_course` and their shared `check_time_conflict`.
 The table is a finite map from row id to course.
 */
module Store {
  import opened Options
  import opened LexOrder
  import opened Clock
  import opened Courses
  import opened Slots

  /**
   The table and its AUTOINCREMENT counter: every id in use is below `nextId`,
   and ids start at 1, so a new row never reuses an id.
   */
  datatype Table = Table(rows: map<nat, Course>, nextId: nat)

  ghost predicate Valid(t: Table) {
    t.nextId >= 1 && forall id :: id in t.rows ==> 1 <= id < t.nextId
  }

  const Empty := Table(map[], 1)

  /**
   The JSON body of a POST or PUT. `None` is a key that is missing (or null);
   a present string may still be empty.
   */
  datatype CourseForm = CourseForm(
    name: Option<string>,
    teacher: Option<string>,
    classroom: Option<string>,
    day: Option<int>,
    start: Option<string>,
    end: Option<string>,
    weekRange: Option<string>,
    notes: Option<string>)

  predicate TruthyText(s: Option<string>) {
    s.Some? && s.value != ""
  }

  /** Course name, day, start and end are all present and truthy (day 0 is falsy). */
  predicate HasRequiredFields(f: CourseForm) {
    TruthyText(f.name) && f.day.Some? && f.day.value != 0 && TruthyText(f.start) && TruthyText(f.end)
  }

  /** The row written for a form; optional text fields default to "". */
  function ToCourse(f: CourseForm): (c: Course)
    requires HasRequiredFields(f)
    ensures c.name == f.name.value && c.day == f.day.value && c.start == f.start.value && c.end == f.end.value
  {
    Course(f.name.value, f.teacher.GetOr(""), f.classroom.GetOr(""), f.day.value,
           f.start.value, f.end.value, f.weekRange.GetOr(""), f.notes.GetOr(""))
  }

  /**
   The overlap test of `check_time_conflict`, on the stored strings:
   `start < course_end and end > course_start` in string order.
   */
  predicate TextOverlap(start: string, end: string, otherStart: string, otherEnd: string) {
    LexLess(start, otherEnd) && LexLess(otherStart, end)
  }

  /** An exclusion id is only applied when truthy; 0 stands for Python's None. */
  predicate Excluded(id: nat, excludeId: nat) {
    excludeId != 0 && id == excludeId
  }

  /**
   `check_time_conflict`: some row other than the excluded one is on `day`
   and its times overlap `[start, end)` in string order.
   */
  ghost predicate HasConflict(t: Table, excludeId: nat, day: int, start: string, end: string) {
    exists id :: id in t.rows && !Excluded(id, excludeId) && t.rows[id].day == day
                 && TextOverlap(start, end, t.rows[id].start, t.rows[id].end)
  }

  /** The query and loop of `check_time_conflict`, visiting the day's rows one by one. */
  method CheckTimeConflict(t: Table, excludeId: nat, day: int, start: string, end: string) returns (conflict: bool)
    ensures conflict <==> HasConflict(t, excludeId, day, start, end)
  {
    var pending := t.rows.Keys;
    while pending != {}
      invariant pending <= t.rows.Keys
      invariant forall id :: id in t.rows && id !in pending ==>
        !(!Excluded(id, excludeId) && t.rows[id].day == day && TextOverlap(start, end, t.rows[id].start, t.rows[id].end))
      decreases pending
    {
      var id :| id in pending;
      var c := t.rows[id];
      if !Excluded(id, excludeId) && c.day == day && TextOverlap(start, end, c.start, c.end) {
        return true;
      }
      pending := pending - {id};
    }
    return false;
  }

  /**
   The store invariant the conflict check maintains: no two different rows on
   the same day overlap.
   */
  ghost predicate NoOverlap(t: Table) {
    forall a, b :: a in t.rows && b in t.rows && a != b && t.rows[a].day == t.rows[b].day ==>
      !TextOverlap(t.rows[a].start, t.rows[a].end, t.rows[b].start, t.rows[b].end)
  }

  /** The string overlap test is symmetric. */
  lemma TextOverlapSymmetric(s1: string, e1: string, s2: string, e2: string)
    ensures TextOverlap(s1, e1, s2, e2) == TextOverlap(s2, e2, s1, e1)
  {
  }

  datatype ApiError =
    | MissingFields  // HTTP 400: a required field is missing or falsy
    | TimeConflict   // HTTP 400: the slot is already taken that day

  datatype Response =
    | Created(id: nat)  // HTTP 201 carrying the new row's id
    | Updated          // HTTP 200 from PUT, also when no row has the id
    | Deleted          // HTTP 200 from DELETE, also when no row has the id
    | Rejected(error: ApiError)
    | ServerError      // HTTP 500: an exception escaped the handler

  /**
   `add_course` as written: validate, check for a conflict with every row of
   the day, insert and commit. It then reads `lastrowid` from the connection,
   which has no such attribute, so every accepted add has already committed
   its row when the handler raises and the client receives a server error.
   */
  method AddCourse(t: Table, f: CourseForm) returns (t': Table, r: Response)
    requires Valid(t)
    ensures Valid(t')
    ensures r == Rejected(MissingFields) <==> !HasRequiredFields(f)
    ensures r == Rejected(TimeConflict) <==>
      HasRequiredFields(f) && HasConflict(t, 0, f.day.value, f.start.value, f.end.value)
    ensures r.Rejected? <==> !HasRequiredFields(f) || HasConflict(t, 0, f.day.value, f.start.value, f.end.value)
    ensures r.Rejected? ==> t' == t
    ensures r == ServerError ==> t.nextId !in t.rows && t'.rows == t.rows[t.nextId := ToCourse(f)]
    ensures r == ServerError ==> t'.nextId == t.nextId + 1
    ensures r.Rejected? || r == ServerError
  {
    if !HasRequiredFields(f) {
      return t, Rejected(MissingFields);
    }
    var conflict := CheckTimeConflict(t, 0, f.day.value, f.start.value, f.end.value);
    if conflict {
      return t, Rejected(TimeConflict);
    }
    t' := Table(t.rows[t.nextId := ToCourse(f)], t.nextId + 1);
    r := ServerError;
  }

  /**
   `add_course` with the id read from the cursor of the INSERT: the new row's
   id, which is the AUTOINCREMENT counter's next value.
   */
  method AddCourseCorrected(t: Table, f: CourseForm) returns (t': Table, r: Response)
    requires Valid(t)
    ensures Valid(t')
    ensures r == Rejected(MissingFields) <==> !HasRequiredFields(f)
    ensures r == Rejected(TimeConflict) <==>
      HasRequiredFields(f) && HasConflict(t, 0, f.day.value, f.start.value, f.end.value)
    ensures r.Rejected? <==> !HasRequiredFields(f) || HasConflict(t, 0, f.day.value, f.start.value, f.end.value)
    ensures r.Rejected? ==> t' == t
    ensures r.Created? ==> r.id !in t.rows && r.id in t'.rows && t'.rows == t.rows[r.id := ToCourse(f)]
    ensures r.Created? ==> r.id == t.nextId && t'.nextId == r.id + 1
    ensures r.Rejected? || r.Created?
  {
    if !HasRequiredFields(f) {
      return t, Rejected(MissingFields);
    }
    var conflict := CheckTimeConflict(t, 0, f.day.value, f.start.value, f.end.value);
    if conflict {
      return t, Rejected(TimeConflict);
    }
    var id := t.nextId;
    t' := Table(t.rows[id := ToCourse(f)], id + 1);
    r := Created(id);
  }

  /**
   Every add that passes validation and the conflict check leaves one more
   row in the table, holding the submitted course, and still answers with a
   server error.
   */
  method AcceptedAddCommitsThenFails(t: Table, f: CourseForm) returns (t': Table, r: Response)
    requires Valid(t)
    requires HasRequiredFields(f) && !HasConflict(t, 0, f.day.value, f.start.value, f.end.value)
    ensures r == ServerError
    ensures t'.rows.Keys == t.rows.Keys + {t.nextId} && t.nextId !in t.rows
    ensures t'.rows[t.nextId] == ToCourse(f)
  {
    t', r := AddCourse(t, f);
  }

  /**
   The two adds write the same table; they differ only in the answer, which
   is a server error as written exactly when the corrected add reports the
   new row's id.
   */
  method AddVersionsAgree(t: Table, f: CourseForm)
    returns (asWritten: Table, corrected: Table, answer: Response, correctedAnswer: Response)
    requires Valid(t)
    ensures asWritten == corrected
    ensures answer == ServerError <==> correctedAnswer.Created?
    ensures answer.Rejected? ==> answer == correctedAnswer
  {
    asWritten, answer := AddCourse(t, f);
    corrected, correctedAnswer := AddCourseCorrected(t, f);
  }

  /**
   `update_course`: validate, check for a conflict with every other row of the
   day (the row itself is excluded when its id is truthy), then overwrite the
   row. An id with no row updates nothing and still reports success.
   */
  method UpdateCourse(t: Table, id: nat, f: CourseForm) returns (t': Table, r: Response)
    requires Valid(t)
    ensures Valid(t')
    ensures r == Rejected(MissingFields) <==> !HasRequiredFields(f)
    ensures r == Rejected(TimeConflict) <==>
      HasRequiredFields(f) && HasConflict(t, id, f.day.value, f.start.value, f.end.value)
    ensures r.Rejected? <==> !HasRequiredFields(f) || HasConflict(t, id, f.day.value, f.start.value, f.end.value)
    ensures r.Rejected? ==> t' == t
    ensures r == Updated ==> t'.rows == (if id in t.rows then t.rows[id := ToCourse(f)] else t.rows)
    ensures t'.nextId == t.nextId
    ensures r.Rejected? || r == Updated
  {
    if !HasRequiredFields(f) {
      return t, Rejected(MissingFields);
    }
    var conflict := CheckTimeConflict(t, id, f.day.value, f.start.value, f.end.value);
    if conflict {
      return t, Rejected(TimeConflict);
    }
    if id in t.rows {
      t' := t.(rows := t.rows[id := ToCourse(f)]);
    } else {
      t' := t;
    }
    r := Updated;
  }

  /** `delete_course`: remove the row with this id, if any; always reports success. */
  function DeleteCourse(t: Table, id: nat): (r: (Table, Response))
    ensures r.1 == Deleted
    ensures id !in r.0.rows
    ensures forall other :: other != id ==> (other in r.0.rows <==> other in t.rows)
    ensures forall other :: other in r.0.rows ==> r.0.rows[other] == t.rows[other]
    ensures id !in t.rows ==> r.0 == t
    ensures Valid(t) ==> Valid(r.0)
  {
    (t.(rows := t.rows - {id}), Deleted)
  }

  /** Inserting a course that conflicts with no row of its day keeps the invariant. */
  lemma AddPreservesNoOverlap(t: Table, f: CourseForm, t': Table, r: Response)
    requires Valid(t) && NoOverlap(t)
    requires HasRequiredFields(f) && !HasConflict(t, 0, f.day.value, f.start.value, f.end.value)
    requires r.Created? && r.id !in t.rows && t'.rows == t.rows[r.id := ToCourse(f)]
    ensures NoOverlap(t')
  {
    var c := ToCourse(f);
    forall a, b | a in t'.rows && b in t'.rows && a != b && t'.rows[a].day == t'.rows[b].day
      ensures !TextOverlap(t'.rows[a].start, t'.rows[a].end, t'.rows[b].start, t'.rows[b].end)
    {
      if a == r.id {
        assert b in t.rows && !Excluded(b, 0);
      } else if b == r.id {
        assert a in t.rows && !Excluded(a, 0);
        TextOverlapSymmetric(c.start, c.end, t.rows[a].start, t.rows[a].end);
      }
    }
  }

  /**
   Every successful add keeps no two same-day rows overlapping; a rejected add
   changes nothing. The add as written leaves the same table (`AddVersionsAgree`).
   */
  method AddKeepsNoOverlap(t: Table, f: CourseForm) returns (t': Table, r: Response)
    requires Valid(t) && NoOverlap(t)
    ensures Valid(t') && NoOverlap(t')
    ensures r.Rejected? <==> !HasRequiredFields(f) || HasConflict(t, 0, f.day.value, f.start.value, f.end.value)
    ensures r.Rejected? ==> t' == t
  {
    t', r := AddCourseCorrected(t, f);
    if r.Created? {
      AddPreservesNoOverlap(t, f, t', r);
    }
  }

  /** Overwriting a row with a course that conflicts with no OTHER row of its day keeps the invariant. */
  lemma UpdatePreservesNoOverlap(t: Table, id: nat, f: CourseForm, t': Table)
    requires Valid(t) && NoOverlap(t)
    requires HasRequiredFields(f) && !HasConflict(t, id, f.day.value, f.start.value, f.end.value)
    requires t'.rows == (if id in t.rows then t.rows[id := ToCourse(f)] else t.rows)
    ensures NoOverlap(t')
  {
    if id in t.rows {
      var c := ToCourse(f);
      forall a, b | a in t'.rows && b in t'.rows && a != b && t'.rows[a].day == t'.rows[b].day
        ensures !TextOverlap(t'.rows[a].start, t'.rows[a].end, t'.rows[b].start, t'.rows[b].end)
      {
        if a == id {
          assert b in t.rows && !Excluded(b, id);
        } else if b == id {
          assert a in t.rows && !Excluded(a, id);
          TextOverlapSymmetric(c.start, c.end, t.rows[a].start, t.rows[a].end);
        }
      }
    }
  }

  /** Every successful update keeps no two same-day rows overlapping. */
  method UpdateKeepsNoOverlap(t: Table, id: nat, f: CourseForm) returns (t': Table, r: Response)
    requires Valid(t) && NoOverlap(t)
    ensures Valid(t') && NoOverlap(t')
    ensures r.Rejected? <==> !HasRequiredFields(f) || HasConflict(t, id, f.day.value, f.start.value, f.end.value)
  {
    t', r := UpdateCourse(t, id, f);
    if r == Updated {
      UpdatePreservesNoOverlap(t, id, f, t');
    }
  }

  /** Deleting rows cannot create an overlap. */
  lemma DeletePreservesNoOverlap(t: Table, id: nat)
    requires NoOverlap(t)
    ensures NoOverlap(DeleteCourse(t, id).0)
  {
  }

  /**
   For zero-padded clock times the string test of `check_time_conflict`
   agrees with the minute test the client uses for the grid.
   */
  lemma TextOverlapIsMinuteOverlap(start: string, end: string, otherStart: string, otherEnd: string)
    requires IsClockTime(start) && IsClockTime(end) && IsClockTime(otherStart) && IsClockTime(otherEnd)
    ensures TextOverlap(start, end, otherStart, otherEnd)
            <==> Overlaps(ClockMinutes(start), ClockMinutes(end), ClockMinutes(otherStart), ClockMinutes(otherEnd))
  {
    LexLessIsMinuteOrder(start, otherEnd);
    LexLessIsMinuteOrder(otherStart, end);
  }

  /**
   Without zero padding the string test goes wrong: a new 9:00-9:30 course
   written "9:00"-"9:30" is not reported against a stored "8:30"-"10:00",
   although it lies inside it, because "9:00" sorts after "10:00".
   */
  lemma UnpaddedTimesMissConflict()
    ensures !TextOverlap("9:00", "9:30", "8:30", "10:00")
    ensures ParseTime("9:00") == Some(540) && ParseTime("9:30") == Some(570)
    ensures ParseTime("8:30") == Some(510) && ParseTime("10:00") == Some(600)
    ensures Overlaps(540, 570, 510, 600)
  {
    NineSortsAfterTen();
    ParseOneDigitHour("9", "00", "9:00", 540);
    ParseOneDigitHour("9", "30", "9:30", 570);
    ParseOneDigitHour("8", "30", "8:30", 510);
    TenOClock();
  }

  lemma NineSortsAfterTen()
    ensures !LexLess("9:00", "10:00")
  {
  }

  lemma TenOClock()
    ensures ParseTime("10:00") == Some(600)
  {
    ParseClockTime("10:00");
  }

  /** A one-digit hour followed by two minute digits parses to its minutes. */
  lemma ParseOneDigitHour(h: string, m: string, s: string, v: int)
    requires |h| == 1 && IsDigit(h[0]) && |m| == 2 && IsDigit(m[0]) && IsDigit(m[1])
    requires s == h + ":" + m && v == DigitValue(h[0]) * 60 + DigitValue(m[0]) * 10 + DigitValue(m[1])
    ensures ParseTime(s) == Some(v)
  {
    DecimalTwoDigits(m);
    assert h[..0] == "";
    assert AllDigits(h);
    ParseParts(h, m);
  }
}

=== FILE: upcoming.dfy ===
/**
 The backend's `/api/upcoming` reminder query: the rest of today's courses and
 all of tomorrow's, ordered by day and start time, at most five.
 */
module Upcoming {
  import opened LexOrder
  import opened Clock
  import opened Courses
  import opened Sorting

  /** The reminder shows at most this many courses (`LIMIT 5`). */
  const Limit := 5

  /** The weekday after `day`, wrapping Sunday (7) to Monday (1). */
  function Tomorrow(day: int): (r: int)
    requires 1 <= day <= 7
    ensures 1 <= r <= 7 && r != day
    ensures day < 7 ==> r == day + 1
    ensures day == 7 ==> r == 1
  {
    day % 7 + 1
  }

  /**
   The WHERE clause: a course later today (its start string not below `now`)
   or any course tomorrow.
   */
  predicate IsUpcoming(c: Course, today: int, now: string)
    requires 1 <= today <= 7
  {
    (c.day == today && !LexLess(c.start, now)) || c.day == Tomorrow(today)
  }

  /** The rows the WHERE clause selects, in table order. */
  function Selected(rows: seq<Course>, today: int, now: string): (r: seq<Course>)
    requires 1 <= today <= 7
    ensures forall c :: c in r ==> IsUpcoming(c, today, now)
    ensures forall c :: c in rows && IsUpcoming(c, today, now) ==> c in r
    ensures multiset(r) <= multiset(rows)
    ensures (forall c :: c in rows ==> IsUpcoming(c, today, now)) ==> r == rows
  {
    if |rows| == 0 then []
    else
      var init := rows[..|rows| - 1];
      var c := rows[|rows| - 1];
      assert rows == init + [c];
      var r := Selected(init, today, now);
      if IsUpcoming(c, today, now) then r + [c] else r
  }

  /**
   `get_upcoming_courses` with `today` = ISO weekday and `now` = `HH:MM`:
   the five (or fewer) selected courses that come first by day, then start.
   */
  function UpcomingCourses(rows: seq<Course>, today: int, now: string): (r: seq<Course>)
    requires 1 <= today <= 7
    ensures |r| == if Limit < |Selected(rows, today, now)| then Limit else |Selected(rows, today, now)|
    ensures forall c :: c in r ==> IsUpcoming(c, today, now)
    ensures SortedBy(r, ByDayThenStart)
    ensures multiset(r) <= multiset(Selected(rows, today, now))
    ensures forall c, x :: c in multiset(Selected(rows, today, now)) - multiset(r) && x in r ==> !ByDayThenStart(c, x)
  {
    var sel := Selected(rows, today, now);
    ByDayThenStartIsStrictOrder();
    var r := Smallest(sel, Limit, ByDayThenStart);
    assert forall c :: c in r ==> c in multiset(sel);
    r
  }

  /**
   The clock inputs: `weekday()` is 0 for Monday through 6 for Sunday, so
   today is 1..7, and `now` is the zero-padded `%H:%M` of the current minute.
   */
  function UpcomingAt(rows: seq<Course>, weekday: nat, minuteOfDay: nat): seq<Course>
    requires weekday < 7 && minuteOfDay < 1440
  {
    UpcomingCourses(rows, weekday + 1, FormatTime(minuteOfDay))
  }

  /**
   For zero-padded start times the string test is the minute test: a course
   today is upcoming exactly when it starts at or after the current minute.
   */
  lemma UpcomingMeansLaterToday(c: Course, weekday: nat, minuteOfDay: nat)
    requires weekday < 7 && minuteOfDay < 1440 && IsClockTime(c.start)
    ensures IsUpcoming(c, weekday + 1, FormatTime(minuteOfDay))
            <==> (c.day == weekday + 1 && ClockMinutes(c.start) >= minuteOfDay) || c.day == Tomorrow(weekday + 1)
  {
    FormatWithinDay(minuteOfDay);
    LexLessIsMinuteOrder(c.start, FormatTime(minuteOfDay));
  }

  /**
   Today's courses first, then tomorrow's, each by start time: the order the
   reminder evidently means. It differs from `ByDayThenStart` only on Sunday,
   when tomorrow (day 1) has the smaller day number.
   */
  predicate SoonerFrom(today: int, a: Course, b: Course) {
    Rank(today, a) < Rank(today, b) || (Rank(today, a) == Rank(today, b) && LexLess(a.start, b.start))
  }

  /** `SoonerFrom` as an ordering to sort by. */
  function Sooner(today: int): (Course, Course) -> bool {
    (a: Course, b: Course) => SoonerFrom(today, a, b)
  }

  function Rank(today: int, c: Course): nat {
    if c.day == today then 0 else 1
  }

  lemma SoonerFromIsStrictOrder(today: int)
    ensures StrictOrder(Sooner(today))
  {
    forall a: Course
      ensures !SoonerFrom(today, a, a)
    {
      LexLessIrreflexive(a.start);
    }
    forall a: Course, b: Course, c: Course | SoonerFrom(today, a, b) && SoonerFrom(today, b, c)
      ensures SoonerFrom(today, a, c)
    {
      if Rank(today, a) == Rank(today, b) == Rank(today, c) {
        LexLessTransitive(a.start, b.start, c.start);
      }
    }
  }

  /** The reminder with today's remaining courses placed before tomorrow's. */
  function UpcomingTodayFirst(rows: seq<Course>, today: int, now: string): (r: seq<Course>)
    requires 1 <= today <= 7
    ensures |r| == if Limit < |Selected(rows, today, now)| then Limit else |Selected(rows, today, now)|
    ensures forall c :: c in r ==> IsUpcoming(c, today, now)
    ensures SortedBy(r, Sooner(today))
    ensures multiset(r) <= multiset(Selected(rows, today, now))
    ensures forall c, x :: c in multiset(Selected(rows, today, now)) - multiset(r) && x in r ==> !Sooner(today)(c, x)
  {
    var sel := Selected(rows, today, now);
    SoonerFromIsStrictOrder(today);
    var r := Smallest(sel, Limit, Sooner(today));
    assert forall c :: c in r ==> c in multiset(sel);
    r
  }

  /**
   With today's courses first, none of today's remaining courses is dropped
   while a course of tomorrow is shown.
   */
  lemma TodayNeverCrowdedOut(rows: seq<Course>, today: int, now: string, c: Course, x: Course)
    requires 1 <= today <= 7
    requires c in Selected(rows, today, now) && c.day == today
    requires x in UpcomingTodayFirst(rows, today, now) && x.day != today
    ensures c in UpcomingTodayFirst(rows, today, now)
  {
    var s := Selected(rows, today, now);
    var r := UpcomingTodayFirst(rows, today, now);
    assert Sooner(today)(c, x);
    assert c !in multiset(s) - multiset(r);
    assert multiset(s)[c] > 0;
    assert multiset(r)[c] > 0;
  }

  /** From Monday to Saturday the reminder as written already lists today first. */
  lemma WeekdaysAgree(rows: seq<Course>, today: int, now: string)
    requires 1 <= today < 7
    ensures UpcomingCourses(rows, today, now) == UpcomingTodayFirst(rows, today, now)
  {
    var s := Selected(rows, today, now);
    ByDayThenStartIsStrictOrder();
    SoonerFromIsStrictOrder(today);
    forall a, b | a in s && b in s
      ensures ByDayThenStart(a, b) == SoonerFrom(today, a, b)
    {
    }
    SortAgrees(s, ByDayThenStart, Sooner(today));
  }

  const SundayEvening := Course("Seminar", "", "", 7, "20:00", "21:30", "", "")

  /** Five Monday-morning courses, in consecutive periods. */
  const MondayCourses := [
    Course("Calculus", "", "", 1, "08:00", "08:45", "", ""),
    Course("Physics", "", "", 1, "08:55", "09:40", "", ""),
    Course("English", "", "", 1, "10:10", "10:55", "", ""),
    Course("History", "", "", 1, "11:05", "11:50", "", ""),
    Course("Chemistry", "", "", 1, "14:00", "14:45", "", "")
  ]

  lemma SundayRowsAllSelected()
    ensures Selected([SundayEvening] + MondayCourses, 7, "19:00") == [SundayEvening] + MondayCourses
    ensures multiset([SundayEvening] + MondayCourses)[SundayEvening] == 1
  {
    var rows := [SundayEvening] + MondayCourses;
    assert IsUpcoming(SundayEvening, 7, "19:00") by {
      assert !LexLess("20:00", "19:00");
    }
    MondaysFirst();
    assert multiset(rows) == multiset{SundayEvening} + multiset(MondayCourses);
  }

  /**
   On Sunday evening at 19:00, with a course at 20:00 and five on Monday, the
   reminder as written lists the five Monday courses and drops the one
   still to come today: Monday's day number 1 sorts before Sunday's 7.
   */
  lemma SundayCourseDropped()
    ensures IsUpcoming(SundayEvening, 7, "19:00") && SundayEvening in Selected([SundayEvening] + MondayCourses, 7, "19:00")
    ensures SundayEvening !in UpcomingCourses([SundayEvening] + MondayCourses, 7, "19:00")
  {
    var rows := [SundayEvening] + MondayCourses;
    SundayRowsAllSelected();
    ByDayThenStartIsStrictOrder();
    assert forall y :: y in rows ==> y == SundayEvening || ByDayThenStart(y, SundayEvening) by {
      MondaysFirst();
    }
    SmallestDropsMaximum(rows, Limit, ByDayThenStart, SundayEvening);
  }

  lemma MondaysFirst()
    ensures forall y :: y in MondayCourses ==> y.day == 1
    ensures forall y :: y in [SundayEvening] + MondayCourses ==> y == SundayEvening || y.day == 1
  {
  }

  /** Listing today first keeps the Sunday-evening course in the same situation. */
  lemma SundayCourseKept()
    ensures SundayEvening in UpcomingTodayFirst([SundayEvening] + MondayCourses, 7, "19:00")
  {
    var rows := [SundayEvening] + MondayCourses;
    SundayRowsAllSelected();
    SoonerFromIsStrictOrder(7);
    assert forall y :: y in rows ==> y == SundayEvening || SoonerFrom(7, SundayEvening, y) by {
      MondaysFirst();
    }
    SmallestKeepsMinimum(rows, Limit, Sooner(7), SundayEvening);
  }
}
